=== FILE: README.md ===
# azdo-process-export, credential resolution and export core, in Dafny

This project models the core of `azdo-process-export`, a tool that reads the
process configuration of an Azure DevOps project and writes it out as JSON.
It models four parts:

- **Credential resolution** (`get_credentials`).
  - With a Personal Access Token (PAT), the tool builds an HTTP Basic header
    (section 2 of RFC 7617, base 64 from section 4 of RFC 4648).
  - Without one, it asks `DefaultAzureCredential` for a bearer token.
  - It then validates the header with a probe request. The probe is skipped
    when no organization is configured. Test rules apply for `test-org` or in
    test logging mode.
  - It leaves exactly one success or failure log record.
- **The REST client** (`AzureDevOpsClient`): its constructor checks, the four
  request headers it sends, the project-list request it builds, and how it
  reads the reply.
- **The metadata service** (`ProjectMetadataService`).
  - How SDK exceptions become its three error kinds.
  - How a project-list reply is unwrapped.
  - How an SDK `TeamProject` becomes a domain `Project`, with defaults for
    absent attributes.
- **The domain records and `ProcessExport.to_dict`**: the camelCase JSON tree
  that is written out.

Everything is pure. The environment variables the code reads are fields of
`Auth.Config`. The outcome of the validation probe, the credential broker,
the HTTP request and the SDK calls are inputs:

- `Auth.ProbeOutcome` and `Auth.BrokerResult`;
- `HttpClient.Exchange`;
- `Metadata.Call`.

Whatever a resolution does that can be seen from outside is returned, in
order, as a sequence of `Auth.Effect`s: broker requests, probe requests, log
records, and test-mode lines on standard output. A broker request stands for
the whole attempt to get a token (importing and building
`DefaultAzureCredential`, then asking it). A failure at any of those steps is
the broker's failure, and it comes after the request effect. A raised exception becomes a
`Failure`/`Err` value.

Files, one module each:

| file | module | contents |
|---|---|---|
| `wrappers.dfy` | `Wrappers` | `Option`, `Result` |
| `bytes.dfy` | `Bytes` | octets |
| `text.dfy` | `Text` | `str.strip()` with Python's whitespace set, substring search, decimal rendering |
| `base64.dfy` | `Base64` | encoder and strict decoder from section 4 of RFC 4648; round trips both ways |
| `utf8.dfy` | `Utf8` | UTF-8 encoder and strict decoder; `encode('ascii')` |
| `json.dfy` | `Json` | JSON values with ordered object members |
| `auth.dfy` | `Auth` | `infrastructure/auth.py` |
| `auth_scenarios.dfy` | `AuthScenarios` | observable resolutions for whole classes of inputs |
| `http_client.dfy` | `HttpClient` | `infrastructure/http_client.py` |
| `metadata.dfy` | `Metadata` | `domain/metadata.py` |
| `models.dfy` | `Models` | `domain/models.py` records and `to_dict` |
| `export_codec.dfy` | `ExportCodec` | a reader for the `to_dict` tree and the round trip |

## Behaviour worth knowing

Each item below is stated as a lemma or contract.

- **PAT selection.** `get_credentials` tests only the truthiness of the PAT
  (`auth.py:167`). So a PAT of one space selects the PAT path, and the
  broker is never asked (`Auth.PatSelected`,
  `AuthScenarios.BlankPatSelectsPatPath`). `AzureDevOpsClient`, by contrast,
  strips its PAT.
- **Redirects.** Of the redirects the validators refuse only 302, so 301 and
  307 pass (`auth.py:73`, `auth.py:101`; `Auth.Rejects`,
  `AuthScenarios.OtherRedirectsPass`).
- **Headers in the output.** In test logging mode (`BEHAVE_JSON_LOGGING=1`),
  a successful resolution prints the whole header map to standard output
  (`auth.py:32`). The PAT can be decoded from that line
  (`Auth.TestLoggingPrintsPat`). Outside that one line, what is logged does
  not depend on the PAT (`Auth.LogsIndependentOfPat`).
- **Probe exceptions.** The validators catch only `httpx.RequestError`
  (`auth.py:77`, `auth.py:105`). Any other exception of the probe, such as
  `httpx.InvalidURL` for an organization holding a control character, fails
  the attempt through the outer handler, with no warning (`Auth.Probe`).
- **Two PAT encodings.** `auth.py` encodes `":" + pat` as UTF-8.
  `http_client.py` strips the PAT first and encodes as ASCII, which raises
  for any other character. For an ASCII PAT that needs no stripping, the two
  give the same header (`HttpClient.AuthHeaders`).

## Model

| member | source | states |
|---|---|---|
| Auth.GetCredentials | azdo_process_export/infrastructure/auth.py:153-170 | A non-empty PAT (no trimming) always takes the PAT path and never asks the broker. It succeeds exactly when the reference decision `Rejects` does not refuse the PAT, with exactly `{"Authorization": Basic(":" + pat)}`, which decodes back to `":" + pat`; otherwise it fails with exactly `Err("PAT", "PAT authentication failed")`, with no fallback. An empty or absent PAT takes the Azure AD path. It succeeds exactly when the simulate flag is off, the broker gives a token and `Rejects` does not refuse that token, with exactly the Bearer header of the token; otherwise it fails with exactly `Err("DefaultAzureCredential", "Azure AD authentication failed")`. Every attempt leaves exactly one outcome record, of its own kind and source. |
| Auth.GetAuthHeaders | azdo_process_export/infrastructure/auth.py:174-177 | Succeeds exactly when `get_credentials` does, with the same headers; otherwise it fails with the same resolution. The requests, records and lines are those of `get_credentials`. |
| Auth.AuthenticateWithPat | azdo_process_export/infrastructure/auth.py:110-125 | Source is always "PAT". It succeeds exactly when the reference decision `Rejects` does not refuse the PAT. On success the headers are exactly the Basic header, which decodes to `":" + pat`. No broker request; one probe exactly when validation is live; one warning exactly when the live probe hit a network error; one outcome record. |
| Auth.AuthenticateWithAzureAd | azdo_process_export/infrastructure/auth.py:128-150 | Source is always "DefaultAzureCredential". It succeeds exactly when the simulate flag is off, the broker gives a token and the token is not refused. On success the headers are exactly `Bearer <token>`. Under the simulate flag the broker is never asked, and the first effect is the failure record carrying the simulated exception. Otherwise the broker is asked exactly once, first. A broker failure is followed by the failure record carrying that exception's `str` and `repr`. With a token and a live organization, the next effect is the probe carrying the Bearer header, with one warning exactly for a network error. There is no probe in any other case. One outcome record. |
| Auth.BearerAttempt | azdo_process_export/infrastructure/auth.py:137-146 | After the broker gave a token: it succeeds exactly when `Rejects` does not refuse the token, with exactly the Bearer header. The token request comes first. When the probe is live, the probe carrying the Bearer header comes next and is the only probe, with one warning exactly for a network error. One outcome record. |
| Auth.Validate | azdo_process_export/infrastructure/auth.py:51-107 | Refuses exactly when the reference decision `Rejects` does: under test rules only the sentinel PAT; live, 302, any status from 400 up, or a probe exception other than a network error. The error is the denial message for the test rule and 302/401/403, the status message for other statuses, and the probe's own exception otherwise. It probes `https://dev.azure.com/<org>/_apis/connectionData` with the given headers exactly when live. It logs one warning exactly for a live network error. It never asks the broker and prints nothing. |
| Auth.Probe | azdo_process_export/infrastructure/auth.py:66-79 | The live probe refuses exactly on 302, a status from 400 up, or an exception that is not an `httpx.RequestError`. The error is the denial message for 302, 401 and 403, the status message for other statuses, and the exception itself when it propagates. The probe request comes first and is the only probe. Exactly one warning, for a network error. Nothing else is logged or printed, and the broker is never asked. |
| Auth.Conclude | azdo_process_export/infrastructure/auth.py:118-125 | Both authentication paths end here. The attempt succeeds exactly when validation passed, returning the given headers; otherwise it raises the path's failure message. Exactly one outcome record follows, of the matching kind and naming the path. The probe and warning counts are the validator's. |
| Auth.SuccessEffects | azdo_process_export/infrastructure/auth.py:25-32 | First the success record naming the source, and no failure record. In test logging mode it is followed by exactly two lines, the success JSON and then the header map; otherwise nothing is printed. Nothing but log records and output lines. |
| Auth.FailureEffects | azdo_process_export/infrastructure/auth.py:35-48 | First the failure record, carrying the source, `str` and `repr` of the error and the failure message, and no success record. In test logging mode it is followed by exactly the line `auth_failure <source>: <message>`; otherwise nothing is printed. Nothing but log records and output lines. |
| Auth.PatSelected | azdo_process_export/infrastructure/auth.py:167 | The PAT path is taken for any PAT that is present and non-empty, whitespace included: Python truthiness, not a trimmed test. |
| Auth.Rejects | azdo_process_export/infrastructure/auth.py:51-107 | The reference decision the validators are held to: with no organization nothing is refused; under the test rules (`test-org` or test logging) only the PAT `invalid-token`; live, a 302, any status from 400 up, or a probe exception other than a network error. |
| Auth.BasicAuthorization | azdo_process_export/infrastructure/auth.py:113-114 | The value starts with `Basic `, and decoding the rest gives back `":" + pat`, for every PAT. |
| Auth.BasicAuthorizationRoundTrip | azdo_process_export/infrastructure/auth.py:113-114 | Decoding the base 64 after `Basic ` and then the UTF-8 gives back `":" + pat`, for every PAT. |
| Auth.ValidateLogs | azdo_process_export/infrastructure/auth.py:77-79 | A validator logs the network-error warning when the live probe could not connect, and nothing otherwise. |
| Auth.PatEffects | azdo_process_export/infrastructure/auth.py:110-125 | The whole effect list of a PAT attempt is the validator's effects (probe and warning, if any), followed by exactly the success records when validation passed, or exactly the failure records of the validator's error when it refused. Nothing else. |
| Auth.AzureAdEffects | azdo_process_export/infrastructure/auth.py:128-150 | The whole effect list of an Azure AD attempt. Under the simulate flag it is exactly the failure records of the simulated exception. Otherwise the token request comes first. After a broker failure it is followed by exactly the failure records of that exception. With a token it is followed by the validator's effects for the Bearer header, then exactly the success records, or the failure records of the validator's error. Nothing else. |
| Auth.PatFailureLogs | azdo_process_export/infrastructure/auth.py:123-125 | A failed PAT attempt logs exactly the failure record (and the test-mode failure line). That record is built from the source, the constant messages and the probe status. |
| Auth.PatSuccessLogs | azdo_process_export/infrastructure/auth.py:118-121 | A successful PAT attempt logs the validator's warning, if any, followed by the success records. |
| Auth.LogsIndependentOfPat | azdo_process_export/infrastructure/auth.py:110-125 | Two PAT attempts with different PATs and the same outcome leave identical logs, unless test logging prints the headers of a success. So failure logs never carry the PAT. |
| Auth.TestLoggingPrintsPat | azdo_process_export/infrastructure/auth.py:25-32 | In test logging mode a successful PAT attempt prints the header map, and that value decodes back to `":" + pat`. |
| Auth.CountsAppend | azdo_process_export/infrastructure/auth.py:118-125 | The record counts used for "exactly one outcome event" add up over concatenated effect sequences. |
| AuthScenarios.PatWithoutOrganization | azdo_process_export/infrastructure/auth.py:53-56 | With no organization (unset or empty) every non-empty PAT succeeds, with its Basic header and without a probe. |
| AuthScenarios.SentinelPatRefused | azdo_process_export/infrastructure/auth.py:59-62 | Whenever the test rules apply, the sentinel PAT fails with the PAT failure and no probe. Exactly one failure record, carrying the denial message, comes first; in test logging mode the one line `auth_failure PAT: PAT authentication failed` follows. |
| AuthScenarios.SimulatedNoAzureCredentials | azdo_process_export/infrastructure/auth.py:132-133 | With the simulate flag and no usable PAT, resolution always fails on the Azure AD path, never asks the broker or probes, and its failure record carries the simulated exception. |
| AuthScenarios.RedirectRefusesBearer | azdo_process_export/infrastructure/auth.py:101-102 | Whenever the probe is live, a 302 refuses every bearer token. |
| AuthScenarios.OtherRedirectsPass | azdo_process_export/infrastructure/auth.py:73-76 | Every live 3xx other than 302 lets either credential through. |
| AuthScenarios.NetworkErrorPasses | azdo_process_export/infrastructure/auth.py:77-79 | Whenever the probe is live, a network error lets every PAT through, with exactly one warning. |
| AuthScenarios.BlankPatSelectsPatPath | azdo_process_export/infrastructure/auth.py:167-170 | Every non-empty PAT made only of whitespace takes the PAT path; the empty PAT takes the Azure AD path. |
| Base64.Encode | azdo_process_export/infrastructure/auth.py:113 | The output has four symbols for every started group of three octets. |
| Base64.DecodeEncode | azdo_process_export/infrastructure/auth.py:113 | The strict decoder gives back every encoded octet string. |
| Base64.EncodeDecode | azdo_process_export/infrastructure/auth.py:113 | Whatever the strict decoder accepts is exactly the encoding of what it returns, so the encoding is canonical. |
| Base64.Rfc4648VectorThree | azdo_process_export/infrastructure/http_client.py:80 | "foo" encodes to "Zm9v", the test vector in section 10 of RFC 4648. |
| Utf8.DecodeEncode | azdo_process_export/infrastructure/auth.py:113 | The strict UTF-8 decoder gives back every encoded string. |
| Utf8.AsciiEncode | azdo_process_export/infrastructure/http_client.py:79 | `encode('ascii')` succeeds exactly on ASCII text, one octet per character. |
| Utf8.AsciiIsUtf8 | azdo_process_export/infrastructure/http_client.py:79 | On ASCII text the ASCII and UTF-8 encodings coincide. |
| Text.Strip | azdo_process_export/infrastructure/http_client.py:52 | The result is the input with whitespace margins removed, and it neither starts nor ends with whitespace. |
| Text.StripEmptyIff | azdo_process_export/infrastructure/http_client.py:47-50 | Stripping gives the empty string exactly when the text is all whitespace. |
| Text.StripPadded | azdo_process_export/infrastructure/http_client.py:78 | Whitespace added around a string does not change its stripped form. |
| Text.ContainsIff | azdo_process_export/domain/metadata.py:91 | The `in` test holds exactly when the phrase occurs at some offset. |
| Text.NatToStringRoundTrip | azdo_process_export/infrastructure/auth.py:76 | The decimal rendering of a status reads back as that status, so distinct statuses give distinct messages. |
| HttpClient.NewClient | azdo_process_export/infrastructure/http_client.py:35-55 | Fails with "Organization cannot be empty or None" exactly when the organization is absent or all whitespace. Otherwise it fails with "Personal Access Token cannot be empty or None" exactly when the PAT is absent or all whitespace. Otherwise it fails with UnicodeEncodeError exactly when the stripped PAT is not ASCII. It succeeds exactly when all three checks pass. On success the stored organization is the non-empty stripped name, the base URL is `https://dev.azure.com/` plus it, the version is the one given, and the headers are those of the PAT. |
| HttpClient.AuthHeaders | azdo_process_export/infrastructure/http_client.py:64-87 | Exactly four headers: Content-Type and Accept `application/json`, User-Agent `azdo-process-export/0.1.0`, and Authorization. Authorization equals the credential resolver's Basic value for the stripped PAT and decodes to `":" + strip(pat)`. It fails exactly when the stripped PAT is not ASCII. |
| HttpClient.AuthHeadersIgnorePadding | azdo_process_export/infrastructure/http_client.py:78-83 | Whitespace around the PAT does not change the headers. |
| HttpClient.BlankIff | azdo_process_export/infrastructure/http_client.py:47-50 | `not x or not x.strip()` holds exactly for an absent or all-whitespace value. |
| HttpClient.ListProjectsRequest | azdo_process_export/infrastructure/http_client.py:110-111 | The request goes to the base URL plus `/_apis/projects`, with the client's headers and the one parameter `api-version` set to the client's version. |
| HttpClient.ListProjectsRequestOfNewClient | azdo_process_export/infrastructure/http_client.py:110-111 | A client built with the default version requests `https://dev.azure.com/<stripped org>/_apis/projects` with the one parameter `api-version=7.0`, and with the Basic credentials of the stripped PAT. |
| HttpClient.ExtractProjects | azdo_process_export/infrastructure/http_client.py:124-129 | A body that is not an object raises AttributeError. An object without `value` gives the empty list. Otherwise the result is the `value` member, or the format ValueError when that member has no length. |
| HttpClient.ExtractFromEnvelope | azdo_process_export/infrastructure/http_client.py:124-125 | The service's `{"count": n, "value": [...]}` envelope yields its list unchanged. |
| HttpClient.ListProjects | azdo_process_export/infrastructure/http_client.py:119-156 | A network error, a non-2xx status and any other exception of the GET are re-raised. An unparsable body becomes the format ValueError. A parsed 2xx body gives exactly what `ExtractProjects` gives for it. Success needs a 2xx reply with an object body. |
| Metadata.Convert | azdo_process_export/domain/metadata.py:141-176 | id, name and url are copied. The collection's url and collection url are the service's organization URL. Absent attributes take their defaults: collection id = project id, "DefaultCollection", description "", "wellFormed", revision 0, "private", team id and name `<id> Team` and `<name> Team`. The team URL is always `<url>/_apis/projects/<id>/teams/<id>%20Team`. The rest of the default team is empty: no description, project id or settings, and no members. |
| Metadata.ConvertCopiesPresentAttributes | azdo_process_export/domain/metadata.py:152-173 | Every `getattr` attribute that is set, even to None, is copied unchanged rather than defaulted: description, state, revision, visibility, collection id and name, and default team id and name. |
| Metadata.BareProjectExport | azdo_process_export/domain/metadata.py:166-176 | An SDK project with only id, name and url is exported with description "", state "wellFormed", revision 0 and visibility "private". |
| Metadata.ClassifyGetProjectError | azdo_process_export/domain/metadata.py:79-93 | Not found exactly for HTTP 404, or a non-HTTP error whose text contains "TF200016" or "does not exist". Authentication exactly for HTTP 401. Otherwise unavailable: the fixed message from 500 up, "Azure DevOps API error: ..." below 500, and "Unexpected error: ..." for non-HTTP errors. |
| Metadata.SaysNotFoundIff | azdo_process_export/domain/metadata.py:91 | The not-found test holds exactly when one of the two phrases occurs in the error text. |
| Metadata.ClassifyListProjectsError | azdo_process_export/domain/metadata.py:131-139 | Never not-found. Authentication exactly for HTTP 401. |
| Metadata.ListClassificationAgreesWithGet | azdo_process_export/domain/metadata.py:131-139 | The list table is the get table, except that a not-found verdict becomes "unavailable" with the generic message. |
| Metadata.GetProjectById | azdo_process_export/domain/metadata.py:69-93 | Succeeds exactly when the SDK call returned, with the conversion of what it returned. Otherwise it fails with the get classification. |
| Metadata.ConvertAll | azdo_process_export/domain/metadata.py:124-127 | One domain project per SDK project, same length and order. |
| Metadata.ConvertAllAppend | azdo_process_export/domain/metadata.py:124-127 | Converting a concatenation converts each part in turn. |
| Metadata.ListProjects | azdo_process_export/domain/metadata.py:109-139 | Never not-found. A raised SDK error goes through the list classification. None, wrapped or bare, is not iterable and gives "Unexpected error: 'NoneType' object is not iterable". It succeeds exactly when a list came back, and then the projects are the converted SDK projects, same length and order. |
| Metadata.WrappedSameAsBare | azdo_process_export/domain/metadata.py:116-121 | A wrapped `value` and the same value returned bare give the same result, list or None. |
| Models.ParseBugBehavior | azdo_process_export/domain/models.py:14-19 | Accepts exactly "asRequirements", "asTasks" and "off", and returns the member with that value. |
| Models.BugBehaviorRoundTrip | azdo_process_export/domain/models.py:14-19 | Parsing a member's value gives the member back. |
| Models.DefaultSettingsJson | azdo_process_export/domain/models.py:112-120 | Default team settings serialise to Monday through Friday, `asRequirements`, and no iterations. |
| Models.SettingsJson | azdo_process_export/domain/models.py:230-236 | The settings object has the five names in order, and `bugsBehavior` is one of the three values. |
| Models.TeamJson | azdo_process_export/domain/models.py:224-253 | The team object has its seven names in order. `settings` is null exactly when the team has none. `members` is as long as the team's member list. |
| Models.TeamSettingsNullIff | azdo_process_export/domain/models.py:230-238 | In the export, each team's `settings` is null exactly when that team has no settings. |
| Models.ToDict | azdo_process_export/domain/models.py:174-278 | Exactly the nine top-level names, in order. Every list is as long as its source. `metrics` is null exactly when absent. `warnings` reads back unchanged. |
| ExportCodec.ExportRoundTrip | azdo_process_export/domain/models.py:174-278 | Reading back the tree gives the export again, with the project's collection and default team absent. So every list keeps its length and order, every element is written field by field, and nothing else is lost. |
| ExportCodec.ProjectRoundTrip | azdo_process_export/domain/models.py:178-186 | The project object keeps id, name, description, url, state, revision and visibility, and drops collection and default team. |
| ExportCodec.TeamRoundTrip | azdo_process_export/domain/models.py:223-253 | A team object, its settings and its members read back unchanged. |
| ExportCodec.MetricsRoundTrip | azdo_process_export/domain/models.py:267-276 | The six month-count maps pass through unchanged, names and order included. |
| ExportCodec.AsListOfListJson | azdo_process_export/domain/models.py:187-198 | A list written element by element reads back element by element, in order. |

## Left out

- Real HTTP: the `httpx` probe and the project-list GET (timeouts, redirect
  settings, the connection itself). Their outcomes are inputs. A 2xx status
  is taken as the condition under which `raise_for_status` does not raise,
  as in current `httpx`.
- `DefaultAzureCredential`, the azure-devops and msrest SDK clients, and
  `BasicAuthentication`. These are foreign calls; their results or raised
  exceptions are inputs. `ProjectMetadataService.__init__` only builds these
  clients, so apart from the stored organization URL it is not modelled.
- Reading environment variables: they are fields of `Auth.Config`.
- `infrastructure/logging.py`, the structlog set-up and its rendering. Log
  records are values, not text. That logging could itself fail is not
  modelled.
- The log calls of `AzureDevOpsClient` (initialisation, request, and error
  lines). They carry no secret and affect no result.
- Floating-point JSON numbers. `Json` has integers only, so a reply whose
  `value` member is a float is not represented. Its treatment would match
  that of an integer, since `len` fails on both.
- Auth.Probe: a probe exception raised before anything is sent, such as
  `httpx.InvalidURL`, is still recorded as the one probe request, because the
  model records the call of `client.get` rather than what reaches the network.
- The CLI (`cli/main.py`, `__main__.py`) and the repository's test suite.
- `datetime.isoformat`: `ProcessExport.exportedAt` is the rendered string.
- Auth.AuthenticateWithAzureAd: the `repr` of a broker exception is an opaque
  input. The simulated failure's repr assumes a message without quotes.
- Auth.AuthenticateWithPat: `":" + pat` is encoded as UTF-8, which cannot fail
  here because model characters are Unicode scalar values. A PAT with a lone
  surrogate, which makes Python's `encode()` raise, is not represented.
- HttpClient.NewClient: the arguments are optional strings. Other Python
  types are not represented. A UnicodeEncodeError is modelled by kind only,
  without its position and message text.
- Metadata.Convert: `id` and `name` are taken to be strings. A `collection_*`
  or `default_team_*` attribute, when present, is taken to hold a string.
- Metadata.ClassifyGetProjectError: an `HttpOperationError` without a response
  object (which would raise AttributeError inside the handler) is not
  represented.
- Metadata.GetProjectById: an SDK call returning None, which would fail inside
  the conversion, is not represented.
- `WorkItemState`, which `to_dict` never uses.

=== FILE: auth.dfy ===
/** Credential resolution: the choice between a Personal Access Token (PAT)
    and an Azure AD bearer token obtained from `DefaultAzureCredential`, the
    validation probe against the organization, and the log records each
    attempt leaves.

    The environment variables the code reads are fields of `Config`; the
    answer of the validation probe and of the credential broker are inputs,
    since each is asked at most once per resolution. Everything observable
    the resolution does, in order, is returned as a sequence of `Effect`s. */
module Auth {
  import opened Wrappers
  import opened Text
  import Base64
  import Utf8

  /** The Azure DevOps resource with the `.default` scope suffix. */
  const AzureDevOpsScope: string := "499b84ac-1321-427f-aa17-267ca6975798/.default"

  /** An organization name that switches validation to test rules. */
  const TestOrganization: string := "test-org"

  /** The one PAT that the test rules reject. */
  const InvalidTokenSentinel: string := "invalid-token"

  /** The credential sources, as they appear in results and logs. */
  const PatSource: string := "PAT"
  const AzureAdSource: string := "DefaultAzureCredential"

  /** The messages of the `AuthenticationError` raised to the caller. */
  const PatFailureMessage: string := "PAT authentication failed"
  const AzureAdFailureMessage: string := "Azure AD authentication failed"

  /** The message of the exception the no-credentials simulation raises. */
  const SimulatedNoCredentials: string := "Simulated: No Azure credentials available"

  /** The probe address is `ProbePrefix + organization + ProbeSuffix`. */
  const ProbePrefix: string := "https://dev.azure.com/"
  const ProbeSuffix: string := "/_apis/connectionData"

  /** HTTP header name to value. */
  type Headers = map<string, string>

  /** The process environment as the resolution reads it:
      `AZDO_ORGANIZATION` (None when unset), `BEHAVE_JSON_LOGGING == "1"` and
      `TEST_SIMULATE_NO_AZURE_CREDENTIALS == "true"`. */
  datatype Config = Config(
    organization: Option<string>,
    behaveJsonLogging: bool,
    simulateNoAzureCredentials: bool)

  /** A raised exception, as `str(e)` and `repr(e)` render it. */
  datatype Exception = Exception(text: string, repr: string)

  /** What `GET <organization>/_apis/connectionData` gives: a response status,
      an `httpx.RequestError` (timeout, DNS, refused connection), which the
      validators catch, or any other exception, which they do not: for
      example `httpx.InvalidURL` for an organization holding a control
      character. */
  datatype ProbeOutcome = Status(code: nat) | RequestError(detail: string) | OtherFailure(error: Exception)

  /** What `DefaultAzureCredential().get_token(scope)` gives. */
  datatype BrokerResult = Token(token: string) | BrokerFailure(error: Exception)

  /** The structured log records of this module. */
  datatype LogEvent =
    | AuthSuccess(credentialSource: string)
    | AuthFailure(credentialSource: string, error: string, exception: string, failureMessage: string)
    | ValidationWarning(message: string, error: string)

  /** The lines written to standard output when `BEHAVE_JSON_LOGGING` is
      "1": `{"event": "authentication_success", "credential_source": ...}`,
      the header map as JSON, and `auth_failure <source>: <message>`. */
  datatype TestLine =
    | SuccessJson(credentialSource: string)
    | HeadersJson(headers: Headers)
    | FailureText(text: string)

  /** Everything a resolution does that can be observed from outside. */
  datatype Effect =
    | BrokerRequest(scope: string)  // `DefaultAzureCredential` is imported, built and asked for a token
    | ProbeRequest(url: string, headers: Headers)
    | Log(event: LogEvent)
    | Stdout(line: TestLine)

  /** `(headers, credential_source)`, or the `AuthenticationError` raised. */
  datatype Resolution =
    | Ok(headers: Headers, source: string)
    | Err(source: string, message: string)

  /** A resolution's result and its effects, in order. */
  datatype Outcome = Outcome(result: Resolution, effects: seq<Effect>)

  /** The exception `AuthenticationError(message)`; its repr is exact for
      messages without quotes or backslashes, which all messages this module
      builds are. */
  function AuthenticationError(message: string): (e: Exception)
    ensures e.text == message
  {
    Exception(message, "AuthenticationError('" + message + "')")
  }

  // ---------------------------------------------------------------------
  // Validation

  /** The two validators differ only in their messages and test rule. */
  datatype TokenKind = PatToken | BearerToken

  /** The message for a redirect to sign-in or an explicit denial. */
  function RejectMessage(kind: TokenKind): string {
    match kind
    case PatToken => "Invalid PAT token - authentication failed"
    case BearerToken => "Invalid Azure AD token - authentication failed"
  }

  /** The message for any other error status. */
  function StatusMessage(kind: TokenKind, code: nat): string {
    match kind
    case PatToken => "PAT validation failed with status " + NatToString(code)
    case BearerToken => "Bearer token validation failed with status " + NatToString(code)
  }

  /** The warning logged when the probe could not reach the service. */
  function WarningMessage(kind: TokenKind): string {
    match kind
    case PatToken => "Could not validate PAT token due to network error"
    case BearerToken => "Could not validate Bearer token due to network error"
  }

  /** No organization is configured (unset or empty): nothing is probed. */
  predicate SkipsValidation(cfg: Config) {
    cfg.organization.None? || cfg.organization.value == ""
  }

  /** The test rules apply instead of a probe. */
  predicate UsesTestRules(cfg: Config) {
    !SkipsValidation(cfg) && (cfg.organization.value == TestOrganization || cfg.behaveJsonLogging)
  }

  /** A real probe is sent. */
  predicate ProbesLive(cfg: Config) {
    !SkipsValidation(cfg) && !UsesTestRules(cfg)
  }

  /** The reference decision: when must a token be refused? Under the test
      rules only the sentinel PAT; live, a 302 (the one redirect refused),
      every status from 400 up, and a probe that raised something other than
      a network error. */
  predicate Rejects(kind: TokenKind, cfg: Config, probe: ProbeOutcome, token: string) {
    || (UsesTestRules(cfg) && kind == PatToken && token == InvalidTokenSentinel)
    || (ProbesLive(cfg) && probe.Status? && (probe.code == 302 || probe.code >= 400))
    || (ProbesLive(cfg) && probe.OtherFailure?)
  }

  /** The error a refusing validator raises: the denial message for the
      test rule and for 302, 401 and 403, the status message for any other
      status, and the probe's own exception when it was not a network error. */
  function RejectionError(kind: TokenKind, cfg: Config, probe: ProbeOutcome): Exception
    requires UsesTestRules(cfg) || !probe.RequestError?
  {
    if UsesTestRules(cfg) then AuthenticationError(RejectMessage(kind))
    else if probe.OtherFailure? then probe.error
    else if probe.code in {302, 401, 403} then AuthenticationError(RejectMessage(kind))
    else AuthenticationError(StatusMessage(kind, probe.code))
  }

  /** The verdict of a validator. */
  datatype Verdict = Pass | Reject(error: Exception)

  /** A validator's verdict and effects. */
  datatype Validation = Validation(verdict: Verdict, effects: seq<Effect>)

  /** The address the live probe is sent to. */
  function ProbeUrl(organization: string): string {
    ProbePrefix + organization + ProbeSuffix
  }

  /** The number of probe requests among `effects`. */
  function CountProbes(effects: seq<Effect>): nat {
    if |effects| == 0 then 0
    else (if effects[0].ProbeRequest? then 1 else 0) + CountProbes(effects[1..])
  }

  /** The number of network-error warnings among `effects`. */
  function CountWarnings(effects: seq<Effect>): nat {
    if |effects| == 0 then 0
    else (if effects[0].Log? && effects[0].event.ValidationWarning? then 1 else 0) + CountWarnings(effects[1..])
  }

  /** What a validator may do: probe, or log a network-error warning; never
      ask the broker, log an outcome record or print. */
  predicate ValidatorEffect(e: Effect) {
    !e.BrokerRequest? && !e.Stdout? && (e.Log? ==> e.event.ValidationWarning?)
  }

  /** The live probe: 302, 401 and 403 refuse with the denial message, any
      other status from 400 up with the status message, a network error
      passes with one warning, and any other exception propagates. The
      request effect records the call of `client.get`. */
  function Probe(kind: TokenKind, probe: ProbeOutcome, request: Effect): (v: Validation)
    requires request.ProbeRequest?
    ensures v.verdict.Reject? <==> probe.OtherFailure? || (probe.Status? && (probe.code == 302 || probe.code >= 400))
    ensures v.verdict.Reject? && probe.OtherFailure? ==> v.verdict.error == probe.error
    ensures v.verdict.Reject? && probe.Status? ==> v.verdict.error == AuthenticationError(
      if probe.code in {302, 401, 403} then RejectMessage(kind) else StatusMessage(kind, probe.code))
    ensures |v.effects| >= 1 && v.effects[0] == request && CountProbes(v.effects) == 1
    ensures CountWarnings(v.effects) == (if probe.RequestError? then 1 else 0)
    ensures forall i :: 0 <= i < |v.effects| ==> ValidatorEffect(v.effects[i])
  {
    SingleCounts(request);
    assert ValidatorEffect(request);
    match probe
    case RequestError(detail) =>
      var warning := Log(ValidationWarning(WarningMessage(kind), detail));
      SingleCounts(warning);
      assert ValidatorEffect(warning);
      CountsAppend([request], [warning]);
      assert [request] + [warning] == [request, warning];
      Validation(Pass, [request, warning])
    case OtherFailure(error) =>
      Validation(Reject(error), [request])
    case Status(code) =>
      if code == 302 || code == 401 || code == 403 then
        Validation(Reject(AuthenticationError(RejectMessage(kind))), [request])
      else if code >= 400 then
        Validation(Reject(AuthenticationError(StatusMessage(kind, code))), [request])
      else
        Validation(Pass, [request])
  }

  /** `_validate_pat_token` and `_validate_bearer_token`. */
  function Validate(kind: TokenKind, cfg: Config, probe: ProbeOutcome, token: string, headers: Headers)
    : (v: Validation)
    ensures v.verdict.Reject? <==> Rejects(kind, cfg, probe, token)
    ensures v.verdict.Reject? ==> v.verdict.error == RejectionError(kind, cfg, probe)
    ensures CountProbes(v.effects) == (if ProbesLive(cfg) then 1 else 0)
    ensures ProbesLive(cfg) ==> v.effects[0] == ProbeRequest(ProbeUrl(cfg.organization.value), headers)
    ensures CountWarnings(v.effects) == (if ProbesLive(cfg) && probe.RequestError? then 1 else 0)
    ensures forall i :: 0 <= i < |v.effects| ==> ValidatorEffect(v.effects[i])
  {
    match cfg.organization
    case None => Validation(Pass, [])
    case Some(org) =>
      if org == "" then Validation(Pass, [])
      else if org == TestOrganization || cfg.behaveJsonLogging then
        if kind == PatToken && token == InvalidTokenSentinel then
          Validation(Reject(AuthenticationError(RejectMessage(kind))), [])
        else
          Validation(Pass, [])
      else
        Probe(kind, probe, ProbeRequest(ProbeUrl(org), headers))
  }

  // ---------------------------------------------------------------------
  // Outcome logging

  /** `_log_auth_success`: one `auth_success` record; in test-logging mode
      also the success line and the header map on standard output. */
  function SuccessEffects(cfg: Config, source: string, headers: Headers): (e: seq<Effect>)
    ensures CountSuccesses(e) == 1 && CountFailures(e) == 0 && CountBrokerRequests(e) == 0
    ensures CountProbes(e) == 0 && CountWarnings(e) == 0
    ensures OutcomeEventsName(e, source)
    ensures |e| >= 1 && e[0] == Log(AuthSuccess(source))
    ensures cfg.behaveJsonLogging ==> e[1..] == [Stdout(SuccessJson(source)), Stdout(HeadersJson(headers))]
    ensures !cfg.behaveJsonLogging ==> forall i :: 0 <= i < |e| ==> !e[i].Stdout?
    ensures forall i :: 0 <= i < |e| ==> e[i].Log? || e[i].Stdout?
  {
    var lines := if cfg.behaveJsonLogging then [Stdout(SuccessJson(source)), Stdout(HeadersJson(headers))] else [];
    OnlyStdout(lines);
    CountsAppend([Log(AuthSuccess(source))], lines);
    [Log(AuthSuccess(source))] + lines
  }

  /** `_log_auth_failure`: one `auth_failure` record; in test-logging mode
      also the failure line on standard output. */
  function FailureEffects(cfg: Config, source: string, error: Exception, message: string): (e: seq<Effect>)
    ensures CountSuccesses(e) == 0 && CountFailures(e) == 1 && CountBrokerRequests(e) == 0
    ensures CountProbes(e) == 0 && CountWarnings(e) == 0
    ensures OutcomeEventsName(e, source)
    ensures |e| >= 1 && e[0] == Log(AuthFailure(source, error.text, error.repr, message))
    ensures cfg.behaveJsonLogging ==> e[1..] == [Stdout(FailureText("auth_failure " + source + ": " + message))]
    ensures !cfg.behaveJsonLogging ==> forall i :: 0 <= i < |e| ==> !e[i].Stdout?
    ensures forall i :: 0 <= i < |e| ==> e[i].Log? || e[i].Stdout?
  {
    var lines := if cfg.behaveJsonLogging then [Stdout(FailureText("auth_failure " + source + ": " + message))] else [];
    OnlyStdout(lines);
    CountsAppend([Log(AuthFailure(source, error.text, error.repr, message))], lines);
    [Log(AuthFailure(source, error.text, error.repr, message))] + lines
  }

  /** The number of `auth_success` records among `effects`. */
  function CountSuccesses(effects: seq<Effect>): nat {
    if |effects| == 0 then 0
    else (if effects[0].Log? && effects[0].event.AuthSuccess? then 1 else 0) + CountSuccesses(effects[1..])
  }

  /** The number of `auth_failure` records among `effects`. */
  function CountFailures(effects: seq<Effect>): nat {
    if |effects| == 0 then 0
    else (if effects[0].Log? && effects[0].event.AuthFailure? then 1 else 0) + CountFailures(effects[1..])
  }

  /** The number of credential-broker requests among `effects`. */
  function CountBrokerRequests(effects: seq<Effect>): nat {
    if |effects| == 0 then 0
    else (if effects[0].BrokerRequest? then 1 else 0) + CountBrokerRequests(effects[1..])
  }

  /** The counts add up over concatenation. */
  lemma {:induction false} CountsAppend(a: seq<Effect>, b: seq<Effect>)
    ensures CountSuccesses(a + b) == CountSuccesses(a) + CountSuccesses(b)
    ensures CountFailures(a + b) == CountFailures(a) + CountFailures(b)
    ensures CountBrokerRequests(a + b) == CountBrokerRequests(a) + CountBrokerRequests(b)
    ensures CountProbes(a + b) == CountProbes(a) + CountProbes(b)
    ensures CountWarnings(a + b) == CountWarnings(a) + CountWarnings(b)
  {
    if |a| == 0 {
      assert a + b == b;
    } else {
      assert (a + b)[1..] == a[1..] + b;
      CountsAppend(a[1..], b);
    }
  }

  /** The counts of a single effect. */
  lemma SingleCounts(e: Effect)
    ensures CountSuccesses([e]) == (if e.Log? && e.event.AuthSuccess? then 1 else 0)
    ensures CountFailures([e]) == (if e.Log? && e.event.AuthFailure? then 1 else 0)
    ensures CountBrokerRequests([e]) == (if e.BrokerRequest? then 1 else 0)
    ensures CountProbes([e]) == (if e.ProbeRequest? then 1 else 0)
    ensures CountWarnings([e]) == (if e.Log? && e.event.ValidationWarning? then 1 else 0)
  {
    assert [e][1..] == [];
  }

  /** Every outcome record in `effects` names `source`. */
  predicate OutcomeEventsName(effects: seq<Effect>, source: string) {
    forall i :: 0 <= i < |effects| && effects[i].Log? && !effects[i].event.ValidationWarning?
      ==> effects[i].event.credentialSource == source
  }

  /** An attempt leaves exactly one outcome record, of the kind and source
      of its result. */
  predicate OneOutcomeEvent(o: Outcome) {
    && CountSuccesses(o.effects) == (if o.result.Ok? then 1 else 0)
    && CountFailures(o.effects) == (if o.result.Err? then 1 else 0)
    && OutcomeEventsName(o.effects, o.result.source)
  }

  /** Validation effects followed by the success or failure records. */
  lemma ValidationThenOutcome(v: seq<Effect>, tail: seq<Effect>, source: string)
    requires forall i :: 0 <= i < |v| ==> ValidatorEffect(v[i])
    requires OutcomeEventsName(tail, source)
    ensures CountSuccesses(v + tail) == CountSuccesses(tail)
    ensures CountFailures(v + tail) == CountFailures(tail)
    ensures CountBrokerRequests(v + tail) == CountBrokerRequests(tail)
    ensures OutcomeEventsName(v + tail, source)
  {
    NoOutcomeEvents(v);
    CountsAppend(v, tail);
  }

  /** Standard-output lines count zero of everything. */
  lemma {:induction false} OnlyStdout(lines: seq<Effect>)
    requires forall i :: 0 <= i < |lines| ==> lines[i].Stdout?
    ensures CountSuccesses(lines) == 0 && CountFailures(lines) == 0 && CountBrokerRequests(lines) == 0
    ensures CountProbes(lines) == 0 && CountWarnings(lines) == 0
  {
    if |lines| > 0 {
      OnlyStdout(lines[1..]);
    }
  }

  /** Effects with no outcome records and no broker requests count zero. */
  lemma {:induction false} NoOutcomeEvents(v: seq<Effect>)
    requires forall i :: 0 <= i < |v| ==> ValidatorEffect(v[i])
    ensures CountSuccesses(v) == 0 && CountFailures(v) == 0 && CountBrokerRequests(v) == 0
  {
    if |v| > 0 {
      NoOutcomeEvents(v[1..]);
    }
  }

  // ---------------------------------------------------------------------
  // The two credential paths

  /** `Basic ` followed by the base 64 of the UTF-8 of `":" + pat`: HTTP Basic
      with an empty user name, section 2 of RFC 7617. */
  function BasicAuthorization(pat: string): (value: string)
    ensures StartsWith(value, "Basic ")
    ensures DecodeBasic(value) == Some(":" + pat)
  {
    BasicAuthorizationRoundTrip(pat);
    "Basic " + Base64.Encode(Utf8.Encode(":" + pat))
  }

  /** `Bearer ` followed by the token. */
  function BearerAuthorization(token: string): string {
    "Bearer " + token
  }

  /** The user-id and password a Basic authorization value carries, as
      `user-id ":" password`; None when it is not a well-formed Basic value. */
  function DecodeBasic(value: string): Option<string> {
    if !StartsWith(value, "Basic ") then None
    else
      match Base64.Decode(value[6..])
      case None => None
      case Some(octets) => Utf8.Decode(octets)
  }

  /** The credentials are recovered from a Basic value. */
  lemma BasicAuthorizationRoundTrip(pat: string)
    ensures DecodeBasic("Basic " + Base64.Encode(Utf8.Encode(":" + pat))) == Some(":" + pat)
  {
    var value := "Basic " + Base64.Encode(Utf8.Encode(":" + pat));
    assert value[6..] == Base64.Encode(Utf8.Encode(":" + pat));
    Base64.DecodeEncode(Utf8.Encode(":" + pat));
    Utf8.DecodeEncode(":" + pat);
  }

  /** The end of both authentication paths: a passing validation logs the
      success records and returns the headers, a refusing one logs the
      failure records and raises `failure`. */
  function Conclude(cfg: Config, source: string, v: Validation, headers: Headers, failure: string): (o: Outcome)
    requires forall i :: 0 <= i < |v.effects| ==> ValidatorEffect(v.effects[i])
    ensures o.result.source == source
    ensures o.result.Ok? <==> v.verdict.Pass?
    ensures o.result.Ok? ==> o.result.headers == headers
    ensures o.result.Err? ==> o.result.message == failure
    ensures CountBrokerRequests(o.effects) == 0
    ensures CountProbes(o.effects) == CountProbes(v.effects)
    ensures CountWarnings(o.effects) == CountWarnings(v.effects)
    ensures |o.effects| > |v.effects| && o.effects[..|v.effects|] == v.effects
    ensures OneOutcomeEvent(o)
  {
    match v.verdict
    case Pass =>
      var tail := SuccessEffects(cfg, source, headers);
      ValidationThenOutcome(v.effects, tail, source);
      CountsAppend(v.effects, tail);
      Outcome(Ok(headers, source), v.effects + tail)
    case Reject(error) =>
      var tail := FailureEffects(cfg, source, error, failure);
      ValidationThenOutcome(v.effects, tail, source);
      CountsAppend(v.effects, tail);
      Outcome(Err(source, failure), v.effects + tail)
  }

  /** `_authenticate_with_pat`. */
  function AuthenticateWithPat(cfg: Config, probe: ProbeOutcome, pat: string): (o: Outcome)
    ensures o.result.source == PatSource
    ensures o.result.Err? ==> o.result.message == PatFailureMessage
    ensures o.result.Ok? <==> !Rejects(PatToken, cfg, probe, pat)
    ensures o.result.Ok? ==> o.result.headers == map["Authorization" := BasicAuthorization(pat)]
    ensures o.result.Ok? ==> DecodeBasic(o.result.headers["Authorization"]) == Some(":" + pat)
    ensures CountBrokerRequests(o.effects) == 0
    ensures CountProbes(o.effects) == (if ProbesLive(cfg) then 1 else 0)
    ensures CountWarnings(o.effects) == (if ProbesLive(cfg) && probe.RequestError? then 1 else 0)
    ensures OneOutcomeEvent(o)
  {
    var headers := map["Authorization" := BasicAuthorization(pat)];
    Conclude(cfg, PatSource, Validate(PatToken, cfg, probe, pat, headers), headers, PatFailureMessage)
  }

  /** `_authenticate_with_azure_ad`: the simulation flag fails before the
      broker is asked; otherwise the broker is asked once for a token. */
  function AuthenticateWithAzureAd(cfg: Config, probe: ProbeOutcome, broker: BrokerResult): (o: Outcome)
    ensures o.result.source == AzureAdSource
    ensures o.result.Err? ==> o.result.message == AzureAdFailureMessage
    ensures o.result.Ok? <==>
      !cfg.simulateNoAzureCredentials && broker.Token? && !Rejects(BearerToken, cfg, probe, broker.token)
    ensures o.result.Ok? ==> o.result.headers == map["Authorization" := BearerAuthorization(broker.token)]
    ensures CountBrokerRequests(o.effects) == (if cfg.simulateNoAzureCredentials then 0 else 1)
    ensures CountProbes(o.effects) ==
      (if !cfg.simulateNoAzureCredentials && broker.Token? && ProbesLive(cfg) then 1 else 0)
    ensures CountWarnings(o.effects) ==
      (if !cfg.simulateNoAzureCredentials && broker.Token? && ProbesLive(cfg) && probe.RequestError? then 1 else 0)
    ensures cfg.simulateNoAzureCredentials ==>
      && |o.effects| >= 1
      && o.effects[0] == Log(AuthFailure(AzureAdSource, SimulatedNoCredentials,
                                         "Exception('" + SimulatedNoCredentials + "')", AzureAdFailureMessage))
    ensures !cfg.simulateNoAzureCredentials ==> |o.effects| >= 2 && o.effects[0] == BrokerRequest(AzureDevOpsScope)
    ensures !cfg.simulateNoAzureCredentials && broker.BrokerFailure? ==>
      o.effects[1] == Log(AuthFailure(AzureAdSource, broker.error.text, broker.error.repr, AzureAdFailureMessage))
    ensures !cfg.simulateNoAzureCredentials && broker.Token? && ProbesLive(cfg) ==>
      o.effects[1] == ProbeRequest(ProbeUrl(cfg.organization.value), map["Authorization" := BearerAuthorization(broker.token)])
    ensures OneOutcomeEvent(o)
  {
    if cfg.simulateNoAzureCredentials then
      var error := Exception(SimulatedNoCredentials, "Exception('" + SimulatedNoCredentials + "')");
      var tail := FailureEffects(cfg, AzureAdSource, error, AzureAdFailureMessage);
      ValidationThenOutcome([], tail, AzureAdSource);
      Outcome(Err(AzureAdSource, AzureAdFailureMessage), tail)
    else
      var request := [BrokerRequest(AzureDevOpsScope)];
      SingleCounts(request[0]);
      match broker
      case BrokerFailure(error) =>
        var tail := FailureEffects(cfg, AzureAdSource, error, AzureAdFailureMessage);
        ValidationThenOutcome([], tail, AzureAdSource);
        CountsAppend(request, tail);
        Outcome(Err(AzureAdSource, AzureAdFailureMessage), request + tail)
      case Token(token) => BearerAttempt(cfg, probe, token)
  }

  /** The Azure AD path once the broker gave a token: the token request, the
      validation of the Bearer header, then the outcome. */
  function BearerAttempt(cfg: Config, probe: ProbeOutcome, token: string): (o: Outcome)
    ensures o.result.source == AzureAdSource
    ensures o.result.Err? ==> o.result.message == AzureAdFailureMessage
    ensures o.result.Ok? <==> !Rejects(BearerToken, cfg, probe, token)
    ensures o.result.Ok? ==> o.result.headers == map["Authorization" := BearerAuthorization(token)]
    ensures CountBrokerRequests(o.effects) == 1
    ensures CountProbes(o.effects) == (if ProbesLive(cfg) then 1 else 0)
    ensures CountWarnings(o.effects) == (if ProbesLive(cfg) && probe.RequestError? then 1 else 0)
    ensures |o.effects| >= 2 && o.effects[0] == BrokerRequest(AzureDevOpsScope)
    ensures ProbesLive(cfg) ==>
      o.effects[1] == ProbeRequest(ProbeUrl(cfg.organization.value), map["Authorization" := BearerAuthorization(token)])
    ensures OneOutcomeEvent(o)
  {
    var request := [BrokerRequest(AzureDevOpsScope)];
    SingleCounts(request[0]);
    var headers := map["Authorization" := BearerAuthorization(token)];
    var v := Validate(BearerToken, cfg, probe, token, headers);
    var rest := Conclude(cfg, AzureAdSource, v, headers, AzureAdFailureMessage);
    CountsAppend(request, rest.effects);
    assert ProbesLive(cfg) ==> rest.effects[0] == v.effects[0];
    Outcome(rest.result, request + rest.effects)
  }

  /** A PAT was given: Python's truthiness test, so any non-empty string,
      whitespace included. */
  predicate PatSelected(pat: Option<string>) {
    pat.Some? && pat.value != ""
  }

  /** `get_credentials`: the PAT path when a PAT is given, the Azure AD path
      otherwise, never both. */
  function GetCredentials(cfg: Config, probe: ProbeOutcome, broker: BrokerResult, pat: Option<string>)
    : (o: Outcome)
    ensures PatSelected(pat) ==> o.result.source == PatSource && CountBrokerRequests(o.effects) == 0
    ensures PatSelected(pat) ==> (o.result.Ok? <==> !Rejects(PatToken, cfg, probe, pat.value))
    ensures PatSelected(pat) && o.result.Err? ==> o.result == Err(PatSource, PatFailureMessage)
    ensures PatSelected(pat) && o.result.Ok?
            ==> o.result.headers == map["Authorization" := BasicAuthorization(pat.value)]
    ensures PatSelected(pat) && o.result.Ok? ==> DecodeBasic(o.result.headers["Authorization"]) == Some(":" + pat.value)
    ensures !PatSelected(pat) ==> o.result.source == AzureAdSource
    ensures !PatSelected(pat) ==> (o.result.Ok? <==>
      !cfg.simulateNoAzureCredentials && broker.Token? && !Rejects(BearerToken, cfg, probe, broker.token))
    ensures !PatSelected(pat) && o.result.Err? ==> o.result == Err(AzureAdSource, AzureAdFailureMessage)
    ensures !PatSelected(pat) && o.result.Ok?
            ==> broker.Token? && o.result.headers == map["Authorization" := BearerAuthorization(broker.token)]
    ensures !PatSelected(pat) && (cfg.simulateNoAzureCredentials || broker.BrokerFailure?)
            ==> o.result == Err(AzureAdSource, AzureAdFailureMessage)
    ensures OneOutcomeEvent(o)
  {
    if PatSelected(pat) then AuthenticateWithPat(cfg, probe, pat.value)
    else AuthenticateWithAzureAd(cfg, probe, broker)
  }

  /** The headers alone, or the failure, with the effects of the resolution. */
  datatype HeadersOutcome = HeadersOutcome(result: Result<Headers, Resolution>, effects: seq<Effect>)

  /** `get_auth_headers`: the headers alone, or the same failure, after the
      same requests, records and lines as `get_credentials`. */
  function GetAuthHeaders(cfg: Config, probe: ProbeOutcome, broker: BrokerResult, pat: Option<string>)
    : (r: HeadersOutcome)
    ensures r.result.Success? <==> GetCredentials(cfg, probe, broker, pat).result.Ok?
    ensures r.result.Success? ==> r.result.value == GetCredentials(cfg, probe, broker, pat).result.headers
    ensures r.result.Failure? ==> r.result.error == GetCredentials(cfg, probe, broker, pat).result
    ensures r.effects == GetCredentials(cfg, probe, broker, pat).effects
  {
    var o := GetCredentials(cfg, probe, broker, pat);
    match o.result
    case Ok(headers, _) => HeadersOutcome(Success(headers), o.effects)
    case Err(_, _) => HeadersOutcome(Failure(o.result), o.effects)
  }

  // ---------------------------------------------------------------------
  // What the logs reveal

  /** The log records and standard-output lines among `effects`, in order:
      everything a reader of the logs sees. */
  function Logs(effects: seq<Effect>): (r: seq<Effect>)
    ensures forall i :: 0 <= i < |r| ==> r[i].Log? || r[i].Stdout?
  {
    if |effects| == 0 then []
    else (if effects[0].Log? || effects[0].Stdout? then [effects[0]] else []) + Logs(effects[1..])
  }

  /** `Logs` distributes over concatenation. */
  lemma {:induction false} LogsAppend(a: seq<Effect>, b: seq<Effect>)
    ensures Logs(a + b) == Logs(a) + Logs(b)
  {
    if |a| == 0 {
      assert a + b == b;
    } else {
      assert (a + b)[1..] == a[1..] + b;
      LogsAppend(a[1..], b);
    }
  }

  /** `Logs` keeps log-only sequences whole. */
  lemma {:induction false} LogsOfLogs(e: seq<Effect>)
    requires forall i :: 0 <= i < |e| ==> e[i].Log? || e[i].Stdout?
    ensures Logs(e) == e
  {
    if |e| > 0 {
      LogsOfLogs(e[1..]);
      assert e == [e[0]] + e[1..];
    }
  }

  /** A validator logs one warning when the live probe hit a network error,
      and nothing else. */
  lemma ValidateLogs(kind: TokenKind, cfg: Config, probe: ProbeOutcome, token: string, headers: Headers)
    ensures Logs(Validate(kind, cfg, probe, token, headers).effects)
         == if ProbesLive(cfg) && probe.RequestError?
            then [Log(ValidationWarning(WarningMessage(kind), probe.detail))] else []
  {
    var e := Validate(kind, cfg, probe, token, headers).effects;
    if ProbesLive(cfg) {
      assert e[1..] == if probe.RequestError? then [Log(ValidationWarning(WarningMessage(kind), probe.detail))] else [];
      LogsOfLogs(e[1..]);
    }
  }

  /** A PAT attempt's effects are the validator's, then the success records
      or the failure records of the validator's error. */
  lemma PatEffects(cfg: Config, probe: ProbeOutcome, pat: string)
    ensures var headers := map["Authorization" := BasicAuthorization(pat)];
      var v := Validate(PatToken, cfg, probe, pat, headers);
      AuthenticateWithPat(cfg, probe, pat).effects
        == v.effects + if v.verdict.Pass? then SuccessEffects(cfg, PatSource, headers)
                       else FailureEffects(cfg, PatSource, v.verdict.error, PatFailureMessage)
  {
  }

  /** An Azure AD attempt's effects: under the simulation flag only the
      failure records of the simulated exception; otherwise the token
      request, then either the failure records of the broker's exception, or
      the validator's effects followed by the success records or the failure
      records of the validator's error. */
  lemma AzureAdEffects(cfg: Config, probe: ProbeOutcome, broker: BrokerResult)
    ensures cfg.simulateNoAzureCredentials ==>
      AuthenticateWithAzureAd(cfg, probe, broker).effects
        == FailureEffects(cfg, AzureAdSource,
                          Exception(SimulatedNoCredentials, "Exception('" + SimulatedNoCredentials + "')"),
                          AzureAdFailureMessage)
    ensures !cfg.simulateNoAzureCredentials && broker.BrokerFailure? ==>
      AuthenticateWithAzureAd(cfg, probe, broker).effects
        == [BrokerRequest(AzureDevOpsScope)] + FailureEffects(cfg, AzureAdSource, broker.error, AzureAdFailureMessage)
    ensures !cfg.simulateNoAzureCredentials && broker.Token? ==>
      var headers := map["Authorization" := BearerAuthorization(broker.token)];
      var v := Validate(BearerToken, cfg, probe, broker.token, headers);
      AuthenticateWithAzureAd(cfg, probe, broker).effects
        == [BrokerRequest(AzureDevOpsScope)] + v.effects
           + if v.verdict.Pass? then SuccessEffects(cfg, AzureAdSource, headers)
             else FailureEffects(cfg, AzureAdSource, v.verdict.error, AzureAdFailureMessage)
  {
  }

  /** A failed PAT attempt logs exactly the failure record (and, in test
      logging mode, the failure line), built from the source, constant
      messages and the probe's status: nothing derived from the PAT. */
  lemma PatFailureLogs(cfg: Config, probe: ProbeOutcome, pat: string)
    requires AuthenticateWithPat(cfg, probe, pat).result.Err?
    ensures UsesTestRules(cfg) || !probe.RequestError?
    ensures Logs(AuthenticateWithPat(cfg, probe, pat).effects)
         == FailureEffects(cfg, PatSource, RejectionError(PatToken, cfg, probe), PatFailureMessage)
  {
    var headers := map["Authorization" := BasicAuthorization(pat)];
    var v := Validate(PatToken, cfg, probe, pat, headers);
    var tail := FailureEffects(cfg, PatSource, RejectionError(PatToken, cfg, probe), PatFailureMessage);
    PatEffects(cfg, probe, pat);
    ValidateLogs(PatToken, cfg, probe, pat, headers);
    LogsAppend(v.effects, tail);
    LogsOfLogs(tail);
  }

  /** A successful PAT attempt logs the validator's warning, if any, then
      the success records. */
  lemma PatSuccessLogs(cfg: Config, probe: ProbeOutcome, pat: string)
    requires AuthenticateWithPat(cfg, probe, pat).result.Ok?
    ensures Logs(AuthenticateWithPat(cfg, probe, pat).effects)
         == (if ProbesLive(cfg) && probe.RequestError?
             then [Log(ValidationWarning(WarningMessage(PatToken), probe.detail))] else [])
            + SuccessEffects(cfg, PatSource, map["Authorization" := BasicAuthorization(pat)])
  {
    var headers := map["Authorization" := BasicAuthorization(pat)];
    var v := Validate(PatToken, cfg, probe, pat, headers);
    var tail := SuccessEffects(cfg, PatSource, headers);
    PatEffects(cfg, probe, pat);
    ValidateLogs(PatToken, cfg, probe, pat, headers);
    LogsAppend(v.effects, tail);
    LogsOfLogs(tail);
  }

  /** The logs never depend on the PAT: two failed attempts with different
      PATs log the same thing, and so do two successful ones unless test
      logging prints the header map. */
  lemma LogsIndependentOfPat(cfg: Config, probe: ProbeOutcome, broker: BrokerResult, pat1: string, pat2: string)
    requires pat1 != "" && pat2 != ""
    requires GetCredentials(cfg, probe, broker, Some(pat1)).result.Ok?
          == GetCredentials(cfg, probe, broker, Some(pat2)).result.Ok?
    requires GetCredentials(cfg, probe, broker, Some(pat1)).result.Ok? ==> !cfg.behaveJsonLogging
    ensures Logs(GetCredentials(cfg, probe, broker, Some(pat1)).effects)
         == Logs(GetCredentials(cfg, probe, broker, Some(pat2)).effects)
  {
    if AuthenticateWithPat(cfg, probe, pat1).result.Ok? {
      PatSuccessLogs(cfg, probe, pat1);
      PatSuccessLogs(cfg, probe, pat2);
    } else {
      PatFailureLogs(cfg, probe, pat1);
      PatFailureLogs(cfg, probe, pat2);
    }
  }

  /** In test logging mode a successful PAT attempt prints the header map,
      from which the PAT can be decoded: the one place a secret reaches the
      output. */
  lemma TestLoggingPrintsPat(cfg: Config, probe: ProbeOutcome, broker: BrokerResult, pat: string)
    requires pat != "" && cfg.behaveJsonLogging
    requires GetCredentials(cfg, probe, broker, Some(pat)).result.Ok?
    ensures Stdout(HeadersJson(map["Authorization" := BasicAuthorization(pat)]))
            in GetCredentials(cfg, probe, broker, Some(pat)).effects
    ensures DecodeBasic(BasicAuthorization(pat)) == Some(":" + pat)
  {
    var o := GetCredentials(cfg, probe, broker, Some(pat));
    var headers := map["Authorization" := BasicAuthorization(pat)];
    var v := Validate(PatToken, cfg, probe, pat, headers);
    var tail := SuccessEffects(cfg, PatSource, headers);
    assert o.effects == v.effects + tail;
    var i := |v.effects| + 2;
    assert o.effects[i] == Stdout(HeadersJson(headers));
  }
}

=== FILE: auth_scenarios.dfy ===
/** The behaviour the command's acceptance scenarios observe, each stated
    for every input of its kind. */
module AuthScenarios {
  import opened Wrappers
  import opened Text
  import opened Auth

  /** With no organization configured (unset or empty) any PAT is accepted,
      with its Basic header and without a probe. */
  lemma PatWithoutOrganization(cfg: Config, probe: ProbeOutcome, broker: BrokerResult, pat: string)
    requires SkipsValidation(cfg) && pat != ""
    ensures GetCredentials(cfg, probe, broker, Some(pat)).result
         == Ok(map["Authorization" := BasicAuthorization(pat)], "PAT")
    ensures CountProbes(GetCredentials(cfg, probe, broker, Some(pat)).effects) == 0
  {
  }

  /** Under the test rules the sentinel PAT is refused: the PAT failure is
      raised, one failure record carries the denial, and in test logging mode
      the `auth_failure PAT: ...` line follows it. */
  lemma SentinelPatRefused(cfg: Config, probe: ProbeOutcome, broker: BrokerResult)
    requires UsesTestRules(cfg)
    ensures GetCredentials(cfg, probe, broker, Some("invalid-token")).result
         == Err("PAT", "PAT authentication failed")
    ensures var e := GetCredentials(cfg, probe, broker, Some("invalid-token")).effects;
      && CountFailures(e) == 1 && CountSuccesses(e) == 0 && CountProbes(e) == 0
      && e[0] == Log(AuthFailure("PAT", "Invalid PAT token - authentication failed",
                                 "AuthenticationError('" + "Invalid PAT token - authentication failed" + "')",
                                 "PAT authentication failed"))
    ensures cfg.behaveJsonLogging ==>
      GetCredentials(cfg, probe, broker, Some("invalid-token")).effects[1..]
        == [Stdout(FailureText("auth_failure " + "PAT" + ": " + "PAT authentication failed"))]
  {
    var pat := "invalid-token";
    var o := GetCredentials(cfg, probe, broker, Some(pat));
    var headers := map["Authorization" := BasicAuthorization(pat)];
    var v := Validate(PatToken, cfg, probe, pat, headers);
    var error := AuthenticationError(RejectMessage(PatToken));
    assert v == Validation(Reject(error), []);
    assert o == Conclude(cfg, PatSource, v, headers, PatFailureMessage);
    var tail := FailureEffects(cfg, PatSource, error, PatFailureMessage);
    assert o.effects == tail by {
      assert o.effects == v.effects + tail;
      assert v.effects + tail == tail;
    }
  }

  /** Without a PAT the simulated absence of Azure credentials fails on the
      Azure AD path before the broker is asked, and the failure record carries
      the simulated exception. */
  lemma SimulatedNoAzureCredentials(cfg: Config, probe: ProbeOutcome, broker: BrokerResult, pat: Option<string>)
    requires cfg.simulateNoAzureCredentials && !PatSelected(pat)
    ensures GetCredentials(cfg, probe, broker, pat).result
         == Err("DefaultAzureCredential", "Azure AD authentication failed")
    ensures var e := GetCredentials(cfg, probe, broker, pat).effects;
      && CountBrokerRequests(e) == 0 && CountProbes(e) == 0
      && e[0] == Log(AuthFailure("DefaultAzureCredential", "Simulated: No Azure credentials available",
                                 "Exception('" + "Simulated: No Azure credentials available" + "')",
                                 "Azure AD authentication failed"))
  {
  }

  /** A 302 from the live probe refuses every Azure AD token: a redirect to
      sign-in is not a success. */
  lemma RedirectRefusesBearer(cfg: Config, token: string)
    requires ProbesLive(cfg)
    ensures GetCredentials(cfg, Status(302), Token(token), None).result
         == Err("DefaultAzureCredential", "Azure AD authentication failed")
  {
  }

  /** Of the redirects only 302 is refused: any other 3xx from the live probe
      lets either credential through. */
  lemma OtherRedirectsPass(cfg: Config, code: nat, token: string, pat: Option<string>)
    requires ProbesLive(cfg) && !cfg.simulateNoAzureCredentials
    requires 300 <= code < 400 && code != 302
    ensures GetCredentials(cfg, Status(code), Token(token), pat).result.Ok?
  {
  }

  /** A network error during the live probe lets any PAT through, with
      exactly one warning. */
  lemma NetworkErrorPasses(cfg: Config, detail: string, broker: BrokerResult, pat: string)
    requires ProbesLive(cfg) && pat != ""
    ensures GetCredentials(cfg, RequestError(detail), broker, Some(pat)).result.Ok?
    ensures CountWarnings(GetCredentials(cfg, RequestError(detail), broker, Some(pat)).effects) == 1
  {
  }

  /** Truthiness, not trimming: a PAT made only of whitespace takes the PAT
      path; only the empty PAT takes the Azure AD path. */
  lemma BlankPatSelectsPatPath(cfg: Config, probe: ProbeOutcome, broker: BrokerResult, pat: string)
    requires AllSpace(pat)
    ensures GetCredentials(cfg, probe, broker, Some(pat)).result.source
         == if pat == "" then "DefaultAzureCredential" else "PAT"
  {
  }
}

=== FILE: base64.dfy ===
/** Base 64 encoding with the standard alphabet and `=` padding, as in
    section 4 of RFC 4648 (what Python's `base64.b64encode` produces), and the
    strict decoder that inverts it. */
module Base64 {
  import opened Wrappers
  import opened Bytes

  /** The padding character. */
  const Pad: char := '='

  /** Table 1 of RFC 4648: the character that stands for a 6-bit value. */
  function Symbol(v: int): (c: char)
    requires 0 <= v < 64
  {
    if v < 26 then ('A' as int + v) as char
    else if v < 52 then ('a' as int + (v - 26)) as char
    else if v < 62 then ('0' as int + (v - 52)) as char
    else if v == 62 then '+'
    else '/'
  }

  /** The 6-bit value a character stands for, or None when it is not in the
      alphabet (the padding character included). */
  function SymbolValue(c: char): (r: Option<int>)
    ensures r.Some? ==> 0 <= r.value < 64 && Symbol(r.value) == c
  {
    if 'A' <= c <= 'Z' then Some(c as int - 'A' as int)
    else if 'a' <= c <= 'z' then Some(c as int - 'a' as int + 26)
    else if '0' <= c <= '9' then Some(c as int - '0' as int + 52)
    else if c == '+' then Some(62)
    else if c == '/' then Some(63)
    else None
  }

  /** Every value has exactly one symbol, and the symbol reads back as it. */
  lemma SymbolRoundTrip(v: int)
    requires 0 <= v < 64
    ensures SymbolValue(Symbol(v)) == Some(v)
    ensures Symbol(v) != Pad
  {
  }

  /** Three octets become four symbols. */
  function EncodeTriple(b0: Byte, b1: Byte, b2: Byte): string {
    [Symbol(b0 / 4), Symbol(b0 % 4 * 16 + b1 / 16), Symbol(b1 % 16 * 4 + b2 / 64), Symbol(b2 % 64)]
  }

  /** A final group of one octet: two symbols and two pads. */
  function EncodeSingle(b0: Byte): string {
    [Symbol(b0 / 4), Symbol(b0 % 4 * 16), Pad, Pad]
  }

  /** A final group of two octets: three symbols and one pad. */
  function EncodePair(b0: Byte, b1: Byte): string {
    [Symbol(b0 / 4), Symbol(b0 % 4 * 16 + b1 / 16), Symbol(b1 % 16 * 4), Pad]
  }

  /** `base64.b64encode`: groups of three octets, the last group padded. */
  function Encode(b: seq<Byte>): (s: string)
    ensures |s| == 4 * ((|b| + 2) / 3)
    decreases |b|
  {
    if |b| == 0 then []
    else if |b| == 1 then EncodeSingle(b[0])
    else if |b| == 2 then EncodePair(b[0], b[1])
    else EncodeTriple(b[0], b[1], b[2]) + Encode(b[3..])
  }

  /** Decodes one group of four characters; padding is accepted only in the
      final group, and the bits the padding discards must be zero. */
  function DecodeGroup(q: string, final: bool): (r: Option<seq<Byte>>)
    requires |q| == 4
    ensures r.Some? ==> 1 <= |r.value| <= 3
    ensures r.Some? && |r.value| < 3 ==> final
  {
    var v0 := SymbolValue(q[0]);
    var v1 := SymbolValue(q[1]);
    var v2 := SymbolValue(q[2]);
    var v3 := SymbolValue(q[3]);
    if v0.None? || v1.None? then None
    else if v2.Some? && v3.Some? then
      Some([v0.value * 4 + v1.value / 16, v1.value % 16 * 16 + v2.value / 4, v2.value % 4 * 64 + v3.value])
    else if !final then None
    else if q[2] == Pad && q[3] == Pad && v1.value % 16 == 0 then
      Some([v0.value * 4 + v1.value / 16])
    else if v2.Some? && q[3] == Pad && v2.value % 4 == 0 then
      Some([v0.value * 4 + v1.value / 16, v1.value % 16 * 16 + v2.value / 4])
    else None
  }

  /** `base64.b64decode` in strict mode: None for any text the encoder
      could not have produced. */
  function Decode(s: string): (r: Option<seq<Byte>>)
    decreases |s|
  {
    if |s| == 0 then Some([])
    else if |s| < 4 then None
    else
      match DecodeGroup(s[..4], |s| == 4)
      case None => None
      case Some(head) =>
        match Decode(s[4..])
        case None => None
        case Some(tail) => Some(head + tail)
  }

  /** The arithmetic of one full group: the four 6-bit values give the three
      octets back. */
  lemma TripleRoundTrip(b0: Byte, b1: Byte, b2: Byte)
    ensures DecodeGroup(EncodeTriple(b0, b1, b2), false) == Some([b0, b1, b2])
    ensures DecodeGroup(EncodeTriple(b0, b1, b2), true) == Some([b0, b1, b2])
  {
    var v0, v1, v2, v3 := b0 / 4, b0 % 4 * 16 + b1 / 16, b1 % 16 * 4 + b2 / 64, b2 % 64;
    SymbolRoundTrip(v0);
    SymbolRoundTrip(v1);
    SymbolRoundTrip(v2);
    SymbolRoundTrip(v3);
    assert v1 / 16 == b0 % 4 && v1 % 16 == b1 / 16;
    assert v2 / 4 == b1 % 16 && v2 % 4 == b2 / 64;
  }

  /** The arithmetic of a final group of one octet. */
  lemma SingleRoundTrip(b0: Byte)
    ensures DecodeGroup(EncodeSingle(b0), true) == Some([b0])
  {
    SymbolRoundTrip(b0 / 4);
    SymbolRoundTrip(b0 % 4 * 16);
    assert SymbolValue(Pad).None?;
  }

  /** The arithmetic of a final group of two octets. */
  lemma PairRoundTrip(b0: Byte, b1: Byte)
    ensures DecodeGroup(EncodePair(b0, b1), true) == Some([b0, b1])
  {
    var v1, v2 := b0 % 4 * 16 + b1 / 16, b1 % 16 * 4;
    SymbolRoundTrip(b0 / 4);
    SymbolRoundTrip(v1);
    SymbolRoundTrip(v2);
    assert SymbolValue(Pad).None?;
    assert v1 / 16 == b0 % 4 && v1 % 16 == b1 / 16 && v2 / 4 == b1 % 16;
  }

  /** A text of one group decodes as a final group. */
  lemma DecodeLastGroup(s: string)
    requires |s| == 4
    ensures Decode(s) == DecodeGroup(s, true)
  {
    assert s[..4] == s;
    assert Decode(s[4..]) == Some([]);
    match DecodeGroup(s, true)
    case None =>
    case Some(head) => assert head + [] == head;
  }

  /** A text of more than one group decodes its first group as a
      non-final one, then the rest. */
  lemma DecodeJoin(q: string, rest: string, head: seq<Byte>, tail: seq<Byte>)
    requires |q| == 4 && |rest| > 0
    requires DecodeGroup(q, false) == Some(head) && Decode(rest) == Some(tail)
    ensures Decode(q + rest) == Some(head + tail)
  {
    assert (q + rest)[..4] == q && (q + rest)[4..] == rest;
  }

  /** More than three octets encode as a full group followed by the rest. */
  lemma EncodeFirstGroup(b: seq<Byte>)
    requires |b| > 3
    ensures Encode(b) == EncodeTriple(b[0], b[1], b[2]) + Encode(b[3..])
    ensures |Encode(b[3..])| > 0
  {
  }

  /** The first full group of a longer octet string decodes to its first
      three octets. */
  lemma HeadRoundTrip(b: seq<Byte>)
    requires |b| > 3
    ensures DecodeGroup(EncodeTriple(b[0], b[1], b[2]), false) == Some(b[..3])
  {
    TripleRoundTrip(b[0], b[1], b[2]);
    assert [b[0], b[1], b[2]] == b[..3];
  }

  /** One step of the round trip: a full group in front of a tail that
      round-trips. */
  lemma DecodeEncodeStep(b: seq<Byte>, q: string, rest: string)
    requires |b| > 3 && |q| == 4 && |rest| > 0
    requires DecodeGroup(q, false) == Some(b[..3]) && Decode(rest) == Some(b[3..])
    ensures Decode(q + rest) == Some(b)
  {
    DecodeJoin(q, rest, b[..3], b[3..]);
    assert b == b[..3] + b[3..];
  }

  /** One octet encodes as a final group that decodes back. */
  lemma OneOctetRoundTrip(b: seq<Byte>)
    requires |b| == 1
    ensures Decode(Encode(b)) == Some(b)
  {
    SingleRoundTrip(b[0]);
    DecodeLastGroup(EncodeSingle(b[0]));
    assert b == [b[0]];
  }

  /** Two octets encode as a final group that decodes back. */
  lemma TwoOctetsRoundTrip(b: seq<Byte>)
    requires |b| == 2
    ensures Decode(Encode(b)) == Some(b)
  {
    PairRoundTrip(b[0], b[1]);
    DecodeLastGroup(EncodePair(b[0], b[1]));
    assert b == [b[0], b[1]];
  }

  /** Three octets encode as a final group that decodes back. */
  lemma ThreeOctetsRoundTrip(b: seq<Byte>)
    requires |b| == 3
    ensures Decode(Encode(b)) == Some(b)
  {
    TripleRoundTrip(b[0], b[1], b[2]);
    assert Encode(b) == EncodeTriple(b[0], b[1], b[2]) + Encode(b[3..]);
    assert Encode(b[3..]) == [];
    DecodeLastGroup(EncodeTriple(b[0], b[1], b[2]));
    assert b == [b[0], b[1], b[2]];
  }

  /** Decoding undoes encoding, for every octet string. */
  lemma {:induction false} DecodeEncode(b: seq<Byte>)
    ensures Decode(Encode(b)) == Some(b)
    decreases |b|
  {
    if |b| == 0 {
    } else if |b| == 1 {
      OneOctetRoundTrip(b);
    } else if |b| == 2 {
      TwoOctetsRoundTrip(b);
    } else if |b| == 3 {
      ThreeOctetsRoundTrip(b);
    } else {
      var q, rest := EncodeTriple(b[0], b[1], b[2]), Encode(b[3..]);
      EncodeFirstGroup(b);
      DecodeEncode(b[3..]);
      HeadRoundTrip(b);
      DecodeEncodeStep(b, q, rest);
    }
  }

  /** A final group that decodes re-encodes to the same four characters. */
  lemma FinalGroupCanonical(q: string, r: seq<Byte>)
    requires |q| == 4 && DecodeGroup(q, true) == Some(r)
    ensures Encode(r) == q
  {
    if |r| == 1 {
      SingleGroupCanonical(q, r);
    } else if |r| == 2 {
      PairGroupCanonical(q, r);
    } else {
      TripleGroupCanonical(q, r);
    }
  }

  /** A final group holding one octet re-encodes to itself. */
  lemma SingleGroupCanonical(q: string, r: seq<Byte>)
    requires |q| == 4 && DecodeGroup(q, true) == Some(r) && |r| == 1
    ensures Encode(r) == q
  {
    var v0, v1 := SymbolValue(q[0]).value, SymbolValue(q[1]).value;
    assert r[0] / 4 == v0 && r[0] % 4 * 16 == v1;
  }

  /** A final group holding two octets re-encodes to itself. */
  lemma PairGroupCanonical(q: string, r: seq<Byte>)
    requires |q| == 4 && DecodeGroup(q, true) == Some(r) && |r| == 2
    ensures Encode(r) == q
  {
    var v0, v1, v2 := SymbolValue(q[0]).value, SymbolValue(q[1]).value, SymbolValue(q[2]).value;
    assert r[0] / 4 == v0 && r[0] % 4 * 16 + r[1] / 16 == v1 && r[1] % 16 * 4 == v2;
  }

  /** A final group holding three octets re-encodes to itself. */
  lemma TripleGroupCanonical(q: string, r: seq<Byte>)
    requires |q| == 4 && DecodeGroup(q, true) == Some(r) && |r| == 3
    ensures Encode(r) == q
  {
    var v0, v1 := SymbolValue(q[0]).value, SymbolValue(q[1]).value;
    var v2, v3 := SymbolValue(q[2]).value, SymbolValue(q[3]).value;
    assert r[0] / 4 == v0 && r[0] % 4 * 16 + r[1] / 16 == v1;
    assert r[1] % 16 * 4 + r[2] / 64 == v2 && r[2] % 64 == v3;
    assert r[3..] == [];
  }

  /** A non-final group that decodes re-encodes to the same characters. */
  lemma FullGroupCanonical(q: string, r: seq<Byte>)
    requires |q| == 4 && DecodeGroup(q, false) == Some(r)
    ensures |r| == 3 && EncodeTriple(r[0], r[1], r[2]) == q
  {
    var v0, v1 := SymbolValue(q[0]).value, SymbolValue(q[1]).value;
    var v2, v3 := SymbolValue(q[2]).value, SymbolValue(q[3]).value;
    assert r[0] / 4 == v0 && r[0] % 4 * 16 + r[1] / 16 == v1;
    assert r[1] % 16 * 4 + r[2] / 64 == v2 && r[2] % 64 == v3;
  }

  /** A text of more than one group that decodes is a decodable non-final
      group followed by a decodable, non-empty rest. */
  lemma DecodeSplit(s: string)
    requires |s| > 4 && Decode(s).Some?
    ensures DecodeGroup(s[..4], false).Some? && Decode(s[4..]).Some?
    ensures Decode(s).value == DecodeGroup(s[..4], false).value + Decode(s[4..]).value
  {
  }

  /** Non-empty text that decodes gives at least one octet. */
  lemma DecodeNonEmpty(s: string)
    requires |s| > 0 && Decode(s).Some?
    ensures |Decode(s).value| > 0
  {
  }

  /** Encoding a full group in front of a non-empty tail. */
  lemma EncodeJoin(head: seq<Byte>, tail: seq<Byte>)
    requires |head| == 3 && |tail| > 0
    ensures Encode(head + tail) == EncodeTriple(head[0], head[1], head[2]) + Encode(tail)
  {
    assert (head + tail)[3..] == tail;
  }

  /** The decoder is strict: whatever it accepts is exactly the encoding of
      what it returns, so each octet string has one textual form. */
  lemma {:induction false} EncodeDecode(s: string, b: seq<Byte>)
    requires Decode(s) == Some(b)
    ensures Encode(b) == s
    decreases |s|
  {
    if |s| == 0 {
    } else if |s| == 4 {
      DecodeLastGroup(s);
      FinalGroupCanonical(s, b);
    } else {
      DecodeSplit(s);
      var q, rest := s[..4], s[4..];
      var head, tail := DecodeGroup(q, false).value, Decode(rest).value;
      EncodeDecode(rest, tail);
      FullGroupCanonical(q, head);
      DecodeNonEmpty(rest);
      EncodeJoin(head, tail);
      assert s == q + rest;
    }
  }

  /** Test vectors from section 10 of RFC 4648, one per padding case. */
  lemma Rfc4648VectorOne()
    ensures Encode([0x66]) == "Zg=="
  {
    assert Symbol(25) == 'Z' && Symbol(32) == 'g';
  }

  lemma Rfc4648VectorTwo()
    ensures Encode([0x66, 0x6f]) == "Zm8="
  {
    assert Symbol(25) == 'Z' && Symbol(38) == 'm' && Symbol(60) == '8';
  }

  lemma Rfc4648VectorThree()
    ensures Encode([0x66, 0x6f, 0x6f]) == "Zm9v"
  {
    assert Symbol(25) == 'Z' && Symbol(38) == 'm' && Symbol(61) == '9' && Symbol(47) == 'v';
    assert Encode([0x66, 0x6f, 0x6f]) == EncodeTriple(0x66, 0x6f, 0x6f) + Encode([]);
  }
}

=== FILE: bytes.dfy ===
/** Octets, as Python's `bytes` holds them. */
module Bytes {

  /** One octet, 0..255. */
  type Byte = b: int | 0 <= b < 256
}

=== FILE: export_codec.dfy ===
/** A reader for the tree `ProcessExport.to_dict` writes. It is the partner of
    the serialiser: reading what was written gives back the export, less the
    two project fields the serialiser drops. */
module ExportCodec {
  import opened Wrappers
  import opened Json
  import opened Models

  /** Reads every item with `dec`; None as soon as one item is refused. */
  function DecodeItems<T>(items: seq<Json>, dec: Json -> Option<T>): (r: Option<seq<T>>)
    ensures r.Some? ==> |r.value| == |items|
    ensures r.Some? ==> forall i :: 0 <= i < |items| ==> dec(items[i]) == Some(r.value[i])
  {
    if |items| == 0 then Some([])
    else
      match dec(items[0])
      case None => None
      case Some(x) =>
        match DecodeItems(items[1..], dec)
        case None => None
        case Some(xs) => Some([x] + xs)
  }

  /** Reads a list whose items `dec` reads. */
  function AsList<T>(j: Json, dec: Json -> Option<T>): Option<seq<T>> {
    if j.Arr? then DecodeItems(j.items, dec) else None
  }

  /** A list written item by item with `enc` reads back item by item with
      `dec`, provided `dec` undoes `enc` on each item. */
  lemma {:induction false} AsListOfListJson<T>(xs: seq<T>, enc: T -> Json, dec: Json -> Option<T>)
    requires forall i :: 0 <= i < |xs| ==> dec(enc(xs[i])) == Some(xs[i])
    ensures AsList(ListJson(xs, enc), dec) == Some(xs)
  {
    if |xs| > 0 {
      assert ListJson(xs, enc).items[1..] == ListJson(xs[1..], enc).items;
      AsListOfListJson(xs[1..], enc, dec);
      assert xs == [xs[0]] + xs[1..];
    }
  }

  /** The project as the serialiser keeps it: no collection, no default team. */
  function Serialised(p: Project): (q: Project)
    ensures q.collection.None? && q.defaultTeam.None?
    ensures q.(collection := p.collection, defaultTeam := p.defaultTeam) == p
  {
    p.(collection := None, defaultTeam := None)
  }

  function DecodeProject(j: Json): Option<Project> {
    match Fields(j, ProjectKeys)
    case None => None
    case Some(v) =>
      var id, name, description, url, state, revision, visibility :=
        AsStr(v[0]), AsStr(v[1]), AsOptStr(v[2]), AsOptStr(v[3]), AsOptStr(v[4]), AsOptInt(v[5]), AsOptStr(v[6]);
      if id.Some? && name.Some? && description.Some? && url.Some? && state.Some? && revision.Some?
         && visibility.Some?
      then Some(Project(id.value, name.value, description.value, url.value, state.value, revision.value,
                        visibility.value, None, None))
      else None
  }

  function DecodeWorkItemType(j: Json): Option<WorkItemType> {
    match Fields(j, WorkItemTypeKeys)
    case None => None
    case Some(v) =>
      var name, refName, description, color, icon, isDisabled, usage :=
        AsStr(v[0]), AsStr(v[1]), AsOptStr(v[2]), AsOptStr(v[3]), AsOptStr(v[4]), AsBool(v[5]), AsInt(v[6]);
      if name.Some? && refName.Some? && description.Some? && color.Some? && icon.Some? && isDisabled.Some?
         && usage.Some?
      then Some(WorkItemType(name.value, refName.value, description.value, color.value, icon.value,
                             isDisabled.value, usage.value))
      else None
  }

  function DecodeField(j: Json): Option<WorkItemField> {
    match Fields(j, FieldKeys)
    case None => None
    case Some(v) =>
      var refName, name, fieldType, description, usage, readOnly, canSortBy, isQueryable, operations :=
        AsStr(v[0]), AsStr(v[1]), AsStr(v[2]), AsOptStr(v[3]), AsOptStr(v[4]), AsBool(v[5]), AsBool(v[6]),
        AsBool(v[7]), AsStrList(v[8]);
      if refName.Some? && name.Some? && fieldType.Some? && description.Some? && usage.Some? && readOnly.Some?
         && canSortBy.Some? && isQueryable.Some? && operations.Some?
      then Some(WorkItemField(refName.value, name.value, fieldType.value, description.value, usage.value,
                              readOnly.value, canSortBy.value, isQueryable.value, operations.value))
      else None
  }

  function DecodeBehavior(j: Json): Option<ProcessBehavior> {
    match Fields(j, BehaviorKeys)
    case None => None
    case Some(v) =>
      var name, refName, inherits, description, isAbstract :=
        AsStr(v[0]), AsStr(v[1]), AsOptStr(v[2]), AsOptStr(v[3]), AsBool(v[4]);
      if name.Some? && refName.Some? && inherits.Some? && description.Some? && isAbstract.Some?
      then Some(ProcessBehavior(name.value, refName.value, inherits.value, description.value, isAbstract.value))
      else None
  }

  function DecodeMember(j: Json): Option<TeamMember> {
    match Fields(j, MemberKeys)
    case None => None
    case Some(v) =>
      var id, displayName, uniqueName, url, imageUrl, aadId, jobTitle, mail, roleHint :=
        AsStr(v[0]), AsStr(v[1]), AsStr(v[2]), AsOptStr(v[3]), AsOptStr(v[4]), AsOptStr(v[5]), AsOptStr(v[6]),
        AsOptStr(v[7]), AsOptStr(v[8]);
      if id.Some? && displayName.Some? && uniqueName.Some? && url.Some? && imageUrl.Some? && aadId.Some?
         && jobTitle.Some? && mail.Some? && roleHint.Some?
      then Some(TeamMember(id.value, displayName.value, uniqueName.value, url.value, imageUrl.value,
                           aadId.value, jobTitle.value, mail.value, roleHint.value))
      else None
  }

  function DecodeSettings(j: Json): Option<TeamSettings> {
    match Fields(j, SettingsKeys)
    case None => None
    case Some(v) =>
      var workingDays, bugsBehavior, defaultIteration, defaultIterationMacro, backlogIteration :=
        AsStrList(v[0]), (if v[1].Str? then ParseBugBehavior(v[1].s) else None), AsOptStr(v[2]), AsOptStr(v[3]),
        AsOptStr(v[4]);
      if workingDays.Some? && bugsBehavior.Some? && defaultIteration.Some? && defaultIterationMacro.Some?
         && backlogIteration.Some?
      then Some(TeamSettings(workingDays.value, bugsBehavior.value, defaultIteration.value,
                             defaultIterationMacro.value, backlogIteration.value))
      else None
  }

  /** `null` is a team without settings. */
  function DecodeOptSettings(j: Json): Option<Option<TeamSettings>> {
    if j.Null? then Some(None)
    else
      match DecodeSettings(j)
      case None => None
      case Some(s) => Some(Some(s))
  }

  function DecodeTeam(j: Json): Option<Team> {
    match Fields(j, TeamKeys)
    case None => None
    case Some(v) =>
      var id, name, description, url, projectId, settings, members :=
        AsStr(v[0]), AsStr(v[1]), AsOptStr(v[2]), AsOptStr(v[3]), AsOptStr(v[4]), DecodeOptSettings(v[5]),
        AsList(v[6], DecodeMember);
      if id.Some? && name.Some? && description.Some? && url.Some? && projectId.Some? && settings.Some?
         && members.Some?
      then Some(Team(id.value, name.value, description.value, url.value, projectId.value, settings.value,
                     members.value))
      else None
  }

  function DecodeBacklogLevel(j: Json): Option<BacklogLevel> {
    match Fields(j, BacklogLevelKeys)
    case None => None
    case Some(v) =>
      var id, name, refName, rank, color, workItemTypes :=
        AsStr(v[0]), AsStr(v[1]), AsStr(v[2]), AsInt(v[3]), AsOptStr(v[4]), AsStrList(v[5]);
      if id.Some? && name.Some? && refName.Some? && rank.Some? && color.Some? && workItemTypes.Some?
      then Some(BacklogLevel(id.value, name.value, refName.value, rank.value, color.value, workItemTypes.value))
      else None
  }

  /** A month-count object: integer values under distinct names. */
  function DecodeCounts(j: Json): Option<MonthCounts> {
    if j.Obj? && forall i :: 0 <= i < |j.members| ==> j.members[i].1.Int? then
      var m := seq(|j.members|, i requires 0 <= i < |j.members| => (j.members[i].0, j.members[i].1.i));
      if NamesDistinct(m) then Some(m) else None
    else None
  }

  function DecodeMetrics(j: Json): Option<Metrics> {
    match Fields(j, MetricsKeys)
    case None => None
    case Some(v) =>
      var created, closed, updated, prsCreated, prsMerged, runs :=
        DecodeCounts(v[0]), DecodeCounts(v[1]), DecodeCounts(v[2]), DecodeCounts(v[3]), DecodeCounts(v[4]),
        DecodeCounts(v[5]);
      if created.Some? && closed.Some? && updated.Some? && prsCreated.Some? && prsMerged.Some? && runs.Some?
      then Some(Metrics(created.value, closed.value, updated.value, prsCreated.value, prsMerged.value, runs.value))
      else None
  }

  /** `null` is an export without metrics. */
  function DecodeOptMetrics(j: Json): Option<Option<Metrics>> {
    if j.Null? then Some(None)
    else
      match DecodeMetrics(j)
      case None => None
      case Some(m) => Some(Some(m))
  }

  /** Reads an export tree; None for any tree `ToDict` could not have written. */
  function FromDict(j: Json): Option<ProcessExport> {
    match Fields(j, ExportKeys)
    case None => None
    case Some(v) =>
      var exportedAt, project, workItemTypes, fields, behaviors, teams, levels, metrics, warnings :=
        AsStr(v[0]), DecodeProject(v[1]), AsList(v[2], DecodeWorkItemType), AsList(v[3], DecodeField),
        AsList(v[4], DecodeBehavior), AsList(v[5], DecodeTeam), AsList(v[6], DecodeBacklogLevel),
        DecodeOptMetrics(v[7]), AsStrList(v[8]);
      if exportedAt.Some? && project.Some? && workItemTypes.Some? && fields.Some? && behaviors.Some?
         && teams.Some? && levels.Some? && metrics.Some? && warnings.Some?
      then Some(ProcessExport(exportedAt.value, project.value, workItemTypes.value, fields.value, behaviors.value,
                              teams.value, levels.value, metrics.value, warnings.value))
      else None
  }

  lemma ProjectRoundTrip(p: Project)
    ensures DecodeProject(ProjectJson(p)) == Some(Serialised(p))
  {
  }

  lemma WorkItemTypeRoundTrip(w: WorkItemType)
    ensures DecodeWorkItemType(WorkItemTypeJson(w)) == Some(w)
  {
  }

  lemma FieldRoundTrip(f: WorkItemField)
    ensures DecodeField(FieldJson(f)) == Some(f)
  {
    ReadersInvertWriters("", None, None, f.supportedOperations);
  }

  lemma BehaviorRoundTrip(b: ProcessBehavior)
    ensures DecodeBehavior(BehaviorJson(b)) == Some(b)
  {
  }

  lemma MemberRoundTrip(m: TeamMember)
    ensures DecodeMember(MemberJson(m)) == Some(m)
  {
  }

  lemma SettingsRoundTrip(s: TeamSettings)
    ensures DecodeSettings(SettingsJson(s)) == Some(s)
  {
    ReadersInvertWriters("", None, None, s.workingDays);
    BugBehaviorRoundTrip(s.bugsBehavior);
  }

  /** Any object whose seven members read back as a team's fields decodes
      as that team. */
  lemma DecodeTeamOf(j: Json, t: Team)
    requires j.Obj? && Keys(j.members) == TeamKeys
    requires j.members[0].1 == Str(t.id) && j.members[1].1 == Str(t.name)
    requires j.members[2].1 == OptStr(t.description) && j.members[3].1 == OptStr(t.url)
    requires j.members[4].1 == OptStr(t.projectId)
    requires DecodeOptSettings(j.members[5].1) == Some(t.settings)
    requires AsList(j.members[6].1, DecodeMember) == Some(t.members)
    ensures DecodeTeam(j) == Some(t)
  {
    FieldsOfObj(j.members);
    var v := Values(j.members);
    ReadersInvertWriters(t.id, t.description, None, []);
    assert AsStr(v[1]) == Some(t.name) by {
      ReadersInvertWriters(t.name, t.url, None, []);
    }
    assert AsOptStr(v[4]) == Some(t.projectId) by {
      ReadersInvertWriters(t.name, t.projectId, None, []);
    }
  }

  lemma TeamRoundTrip(t: Team)
    ensures DecodeTeam(TeamJson(t)) == Some(t)
  {
    TeamScalarMembers(t);
    TeamNestedFields(t);
    DecodeTeamOf(TeamJson(t), t);
  }

  /** The first five members of a team object. */
  lemma TeamScalarMembers(t: Team)
    ensures |TeamJson(t).members| == 7
    ensures TeamJson(t).members[0].1 == Str(t.id) && TeamJson(t).members[1].1 == Str(t.name)
    ensures TeamJson(t).members[2].1 == OptStr(t.description) && TeamJson(t).members[3].1 == OptStr(t.url)
    ensures TeamJson(t).members[4].1 == OptStr(t.projectId)
  {
  }

  /** A team object's settings and members read back unchanged. */
  lemma TeamNestedFields(t: Team)
    ensures |TeamJson(t).members| == 7
    ensures DecodeOptSettings(TeamJson(t).members[5].1) == Some(t.settings)
    ensures AsList(TeamJson(t).members[6].1, DecodeMember) == Some(t.members)
  {
    if t.settings.Some? {
      SettingsRoundTrip(t.settings.value);
    }
    MembersRoundTrip(t.members);
  }

  lemma MembersRoundTrip(ms: seq<TeamMember>)
    ensures AsList(ListJson(ms, MemberJson), DecodeMember) == Some(ms)
  {
    forall i | 0 <= i < |ms|
      ensures DecodeMember(MemberJson(ms[i])) == Some(ms[i])
    {
      MemberRoundTrip(ms[i]);
    }
    AsListOfListJson(ms, MemberJson, DecodeMember);
  }

  lemma BacklogLevelRoundTrip(l: BacklogLevel)
    ensures DecodeBacklogLevel(BacklogLevelJson(l)) == Some(l)
  {
    ReadersInvertWriters("", None, None, l.workItemTypes);
  }

  lemma CountsRoundTrip(m: MonthCounts)
    ensures DecodeCounts(CountsJson(m)) == Some(m)
  {
    var j := CountsJson(m);
    assert seq(|j.members|, i requires 0 <= i < |j.members| => (j.members[i].0, j.members[i].1.i)) == m;
  }

  lemma MetricsRoundTrip(m: Metrics)
    ensures DecodeMetrics(MetricsJson(m)) == Some(m)
  {
    CountsRoundTrip(m.workItemsCreatedPerMonth);
    CountsRoundTrip(m.workItemsClosedPerMonth);
    CountsRoundTrip(m.workItemsUpdatedPerMonth);
    CountsRoundTrip(m.prsCreatedPerMonth);
    CountsRoundTrip(m.prsMergedPerMonth);
    CountsRoundTrip(m.pipelineRunsPerMonth);
  }

  lemma WorkItemTypesRoundTrip(ws: seq<WorkItemType>)
    ensures AsList(ListJson(ws, WorkItemTypeJson), DecodeWorkItemType) == Some(ws)
  {
    forall i | 0 <= i < |ws|
      ensures DecodeWorkItemType(WorkItemTypeJson(ws[i])) == Some(ws[i])
    {
      WorkItemTypeRoundTrip(ws[i]);
    }
    AsListOfListJson(ws, WorkItemTypeJson, DecodeWorkItemType);
  }

  lemma FieldsRoundTrip(fs: seq<WorkItemField>)
    ensures AsList(ListJson(fs, FieldJson), DecodeField) == Some(fs)
  {
    forall i | 0 <= i < |fs|
      ensures DecodeField(FieldJson(fs[i])) == Some(fs[i])
    {
      FieldRoundTrip(fs[i]);
    }
    AsListOfListJson(fs, FieldJson, DecodeField);
  }

  lemma BehaviorsRoundTrip(bs: seq<ProcessBehavior>)
    ensures AsList(ListJson(bs, BehaviorJson), DecodeBehavior) == Some(bs)
  {
    forall i | 0 <= i < |bs|
      ensures DecodeBehavior(BehaviorJson(bs[i])) == Some(bs[i])
    {
      BehaviorRoundTrip(bs[i]);
    }
    AsListOfListJson(bs, BehaviorJson, DecodeBehavior);
  }

  lemma TeamsRoundTrip(ts: seq<Team>)
    ensures AsList(ListJson(ts, TeamJson), DecodeTeam) == Some(ts)
  {
    forall i | 0 <= i < |ts|
      ensures DecodeTeam(TeamJson(ts[i])) == Some(ts[i])
    {
      TeamRoundTrip(ts[i]);
    }
    AsListOfListJson(ts, TeamJson, DecodeTeam);
  }

  lemma BacklogLevelsRoundTrip(ls: seq<BacklogLevel>)
    ensures AsList(ListJson(ls, BacklogLevelJson), DecodeBacklogLevel) == Some(ls)
  {
    forall i | 0 <= i < |ls|
      ensures DecodeBacklogLevel(BacklogLevelJson(ls[i])) == Some(ls[i])
    {
      BacklogLevelRoundTrip(ls[i]);
    }
    AsListOfListJson(ls, BacklogLevelJson, DecodeBacklogLevel);
  }

  /** The nine members of the exported tree, one writer each. */
  lemma ExportMembers(e: ProcessExport)
    ensures |ToDict(e).members| == 9
    ensures ToDict(e).members[0].1 == Str(e.exportedAt)
    ensures ToDict(e).members[1].1 == ProjectJson(e.project)
    ensures ToDict(e).members[2].1 == ListJson(e.workItemTypes, WorkItemTypeJson)
    ensures ToDict(e).members[3].1 == ListJson(e.fields, FieldJson)
    ensures ToDict(e).members[4].1 == ListJson(e.behaviors, BehaviorJson)
    ensures ToDict(e).members[5].1 == ListJson(e.teams, TeamJson)
    ensures ToDict(e).members[6].1 == ListJson(e.backlogLevels, BacklogLevelJson)
    ensures e.metrics.None? ==> ToDict(e).members[7].1 == Null
    ensures e.metrics.Some? ==> ToDict(e).members[7].1 == MetricsJson(e.metrics.value)
  {
  }

  /** The nine members of the exported tree read back as the export's
      fields. */
  lemma ExportFields(e: ProcessExport) returns (v: seq<Json>)
    ensures Fields(ToDict(e), ExportKeys) == Some(v)
    ensures AsStr(v[0]) == Some(e.exportedAt)
    ensures DecodeProject(v[1]) == Some(Serialised(e.project))
    ensures AsList(v[2], DecodeWorkItemType) == Some(e.workItemTypes)
    ensures AsList(v[3], DecodeField) == Some(e.fields)
    ensures AsList(v[4], DecodeBehavior) == Some(e.behaviors)
    ensures AsList(v[5], DecodeTeam) == Some(e.teams)
    ensures AsList(v[6], DecodeBacklogLevel) == Some(e.backlogLevels)
    ensures DecodeOptMetrics(v[7]) == Some(e.metrics)
    ensures AsStrList(v[8]) == Some(e.warnings)
  {
    v := Values(ToDict(e).members);
    assert Fields(ToDict(e), ExportKeys) == Some(v);
    ExportMembers(e);
    ReadersInvertWriters(e.exportedAt, None, None, e.warnings);
    ProjectRoundTrip(e.project);
    WorkItemTypesRoundTrip(e.workItemTypes);
    FieldsRoundTrip(e.fields);
    BehaviorsRoundTrip(e.behaviors);
    TeamsRoundTrip(e.teams);
    BacklogLevelsRoundTrip(e.backlogLevels);
    if e.metrics.Some? {
      MetricsRoundTrip(e.metrics.value);
    }
  }

  /** Reading back what `to_dict` wrote gives the export again, except that the
      project's collection and default team, which are never written, come
      back absent; so every list keeps its length and order and every element
      is written field by field. */
  lemma ExportRoundTrip(e: ProcessExport)
    ensures FromDict(ToDict(e)) == Some(e.(project := Serialised(e.project)))
  {
    var v := ExportFields(e);
  }
}

=== FILE: http_client.dfy ===
/** `AzureDevOpsClient`: the validation its constructor performs, the four headers
    it sends, the project-list request it builds and how it reads the reply.
    The request itself is not modelled; its outcome is an input. */
module HttpClient {
  import opened Wrappers
  import opened Text
  import opened Json
  import Utf8
  import Base64
  import Auth

  const DefaultApiVersion: string := "7.0"
  const BaseUrlPrefix: string := "https://dev.azure.com/"
  const ProjectsPath: string := "/_apis/projects"
  const ApiVersionParam: string := "api-version"
  const JsonMediaType: string := "application/json"
  const UserAgent: string := "azdo-process-export/0.1.0"

  const OrganizationMessage: string := "Organization cannot be empty or None"
  const PatMessage: string := "Personal Access Token cannot be empty or None"
  const FormatMessagePrefix: string := "Unexpected response format from Azure DevOps API: "

  /** The four header names every request carries. */
  const HeaderNames: set<string> := {"Authorization", "Content-Type", "Accept", "User-Agent"}

  type Headers = map<string, string>

  /** What the constructor raises. */
  datatype InitError =
    | ValueError(message: string)
    | NonAsciiPat  // UnicodeEncodeError from `encode('ascii')`

  datatype Client = Client(organization: string, apiVersion: string, baseUrl: string, headers: Headers)

  /** Python's `not x or not x.strip()` on an optional string. */
  predicate Blank(x: Option<string>) {
    x.None? || Strip(x.value) == ""
  }

  /** Blank means absent or made of whitespace only. */
  lemma BlankIff(x: Option<string>)
    ensures Blank(x) <==> x.None? || AllSpace(x.value)
  {
    if x.Some? {
      StripEmptyIff(x.value);
    }
  }

  /** `_create_auth_headers`: Basic credentials for the stripped PAT, encoded
      as ASCII (UnicodeEncodeError for any other character), and three fixed
      headers. The Authorization value is what the credential resolver builds
      for the stripped PAT, and it decodes back to `":" + strip(pat)`. */
  function AuthHeaders(pat: string): (r: Result<Headers, InitError>)
    ensures r.Success? <==> Utf8.IsAscii(Strip(pat))
    ensures r.Failure? ==> r.error == NonAsciiPat
    ensures r.Success? ==> r.value.Keys == HeaderNames
    ensures r.Success? ==> r.value["Content-Type"] == JsonMediaType && r.value["Accept"] == JsonMediaType
    ensures r.Success? ==> r.value["User-Agent"] == UserAgent
    ensures r.Success? ==> r.value["Authorization"] == Auth.BasicAuthorization(Strip(pat))
    ensures r.Success? ==> Auth.DecodeBasic(r.value["Authorization"]) == Some(":" + Strip(pat))
  {
    var credentials := ":" + Strip(pat);
    assert Utf8.IsAscii(credentials) <==> Utf8.IsAscii(Strip(pat)) by {
      assert forall k :: 0 <= k < |Strip(pat)| ==> credentials[k + 1] == Strip(pat)[k];
    }
    match Utf8.AsciiEncode(credentials)
    case None => Failure(NonAsciiPat)
    case Some(octets) =>
      Utf8.AsciiIsUtf8(credentials);
      Success(map[
        "Authorization" := "Basic " + Base64.Encode(octets),
        "Content-Type" := JsonMediaType,
        "Accept" := JsonMediaType,
        "User-Agent" := UserAgent])
  }

  /** Whitespace around the PAT does not change the headers. */
  lemma AuthHeadersIgnorePadding(a: string, pat: string, b: string)
    requires AllSpace(a) && AllSpace(b)
    ensures AuthHeaders(a + pat + b) == AuthHeaders(pat)
  {
    StripPadded(a, pat, b);
  }

  /** `AzureDevOpsClient(organization, pat, api_version)`: the organization is
      checked first, then the PAT; the stored organization is the stripped one
      and the base URL is built from it. */
  function NewClient(organization: Option<string>, pat: Option<string>, apiVersion: string := DefaultApiVersion)
    : (r: Result<Client, InitError>)
    ensures r == Failure(ValueError(OrganizationMessage)) <==> organization.None? || AllSpace(organization.value)
    ensures r == Failure(ValueError(PatMessage)) <==>
      !Blank(organization) && (pat.None? || AllSpace(pat.value))
    ensures r == Failure(NonAsciiPat) <==>
      !Blank(organization) && !Blank(pat) && !Utf8.IsAscii(Strip(pat.value))
    ensures r.Success? <==> !Blank(organization) && !Blank(pat) && Utf8.IsAscii(Strip(pat.value))
    ensures r.Success? ==> organization.Some? && pat.Some?
    ensures r.Success? ==> r.value.organization == Strip(organization.value) && r.value.organization != ""
    ensures r.Success? ==> r.value.baseUrl == BaseUrlPrefix + r.value.organization
    ensures r.Success? ==> r.value.apiVersion == apiVersion
    ensures r.Success? ==> Success(r.value.headers) == AuthHeaders(pat.value)
  {
    BlankIff(organization);
    BlankIff(pat);
    if Blank(organization) then Failure(ValueError(OrganizationMessage))
    else if Blank(pat) then Failure(ValueError(PatMessage))
    else
      var org := Strip(organization.value);
      match AuthHeaders(pat.value)
      case Failure(e) => Failure(e)
      case Success(headers) => Success(Client(org, apiVersion, BaseUrlPrefix + org, headers))
  }

  /** An HTTP GET with its query parameters. */
  datatype Request = Request(url: string, headers: Headers, params: seq<(string, string)>)

  /** The request `list_projects` sends. */
  function ListProjectsRequest(c: Client): (q: Request)
    ensures q.url == c.baseUrl + "/_apis/projects"
    ensures q.headers == c.headers
    ensures q.params == [("api-version", c.apiVersion)]
  {
    Request(c.baseUrl + ProjectsPath, c.headers, [(ApiVersionParam, c.apiVersion)])
  }

  /** A client built with the default version asks for
      `https://dev.azure.com/<org>/_apis/projects?api-version=7.0` with the
      Basic credentials of the stripped PAT. */
  lemma ListProjectsRequestOfNewClient(organization: Option<string>, pat: Option<string>)
    requires NewClient(organization, pat).Success?
    ensures var q := ListProjectsRequest(NewClient(organization, pat).value);
      && q.url == "https://dev.azure.com/" + Strip(organization.value) + "/_apis/projects"
      && q.params == [("api-version", "7.0")]
      && q.headers["Authorization"] == Auth.BasicAuthorization(Strip(pat.value))
  {
  }

  /** The reply: a status code and the body, which either parses as JSON or
      fails with the parser's message. */
  datatype Response = Response(status: nat, body: Result<Json, string>)

  /** What the GET gives back: a reply, an `httpx.RequestError`, or another
      exception none of the handlers catches (`httpx.InvalidURL`, say). */
  datatype Exchange = Received(response: Response) | Unreachable(detail: string) | Raised(error: string)

  /** What `list_projects` raises. */
  datatype ListError =
    | HttpStatusError(status: nat)      // re-raised from `raise_for_status`
    | RequestError(detail: string)      // re-raised network failure
    | UnexpectedFormat(message: string) // the ValueError built from a parse or type error
    | AttributeError(message: string)   // `.get` on a body that is not an object
    | Propagated(error: string)         // any other exception of the GET, unchanged

  /** Python's name for the type of a parsed JSON value. */
  function TypeName(j: Json): string {
    match j
    case Null => "NoneType"
    case Bool(_) => "bool"
    case Int(_) => "int"
    case Str(_) => "str"
    case Arr(_) => "list"
    case Obj(_) => "dict"
  }

  /** `len(x)` is defined: strings, lists and objects. */
  predicate HasLen(j: Json) {
    j.Str? || j.Arr? || j.Obj?
  }

  /** `data.get("value", [])`, then `len` of it for the log line. */
  function ExtractProjects(data: Json): (r: Result<Json, ListError>)
    ensures !data.Obj? <==> r.Failure? && r.error.AttributeError?
    ensures data.Obj? && "value" !in Keys(data.members) ==> r == Success(Arr([]))
    ensures data.Obj? && "value" in Keys(data.members) ==>
      var v := Get(data.members, "value").value;
      && (r.Success? <==> HasLen(v))
      && (r.Success? ==> r.value == v)
      && (r.Failure? ==> r.error == UnexpectedFormat(FormatMessagePrefix + "object of type '" + TypeName(v) + "' has no len()"))
  {
    if !data.Obj? then
      Failure(AttributeError("'" + TypeName(data) + "' object has no attribute 'get'"))
    else
      var projects := Get(data.members, "value").GetOr(Arr([]));
      if HasLen(projects) then Success(projects)
      else Failure(UnexpectedFormat(FormatMessagePrefix + "object of type '" + TypeName(projects) + "' has no len()"))
  }

  /** The service's envelope `{"count": n, "value": [...]}` yields its list. */
  lemma ExtractFromEnvelope(count: int, items: seq<Json>)
    ensures ExtractProjects(Obj([("count", Int(count)), ("value", Arr(items))])) == Success(Arr(items))
  {
  }

  /** An object with no `value` member yields the empty list, whatever else it
      holds. */
  lemma ExtractWithoutValue(members: seq<(string, Json)>)
    requires "value" !in Keys(members)
    ensures ExtractProjects(Obj(members)) == Success(Arr([]))
  {
  }

  /** `list_projects` after the GET: a status outside 2xx raises (httpx's
      `raise_for_status`), a body that does not parse becomes the format
      ValueError, and a parsed body goes to `ExtractProjects`. */
  function ListProjects(exchange: Exchange): (r: Result<Json, ListError>)
    ensures exchange.Unreachable? ==> r == Failure(RequestError(exchange.detail))
    ensures exchange.Raised? ==> r == Failure(Propagated(exchange.error))
    ensures exchange.Received? && !(200 <= exchange.response.status < 300) ==>
      r == Failure(HttpStatusError(exchange.response.status))
    ensures exchange.Received? && 200 <= exchange.response.status < 300 && exchange.response.body.Failure? ==>
      r == Failure(UnexpectedFormat(FormatMessagePrefix + exchange.response.body.error))
    ensures exchange.Received? && 200 <= exchange.response.status < 300 && exchange.response.body.Success? ==>
      r == ExtractProjects(exchange.response.body.value)
    ensures r.Success? ==>
      && exchange.Received? && 200 <= exchange.response.status < 300
      && exchange.response.body.Success? && exchange.response.body.value.Obj?
  {
    match exchange
    case Unreachable(detail) => Failure(RequestError(detail))
    case Raised(error) => Failure(Propagated(error))
    case Received(response) =>
      if !(200 <= response.status < 300) then Failure(HttpStatusError(response.status))
      else
        match response.body
        case Failure(detail) => Failure(UnexpectedFormat(FormatMessagePrefix + detail))
        case Success(data) => ExtractProjects(data)
  }
}

=== FILE: json.dfy ===
/** A JSON value as Python builds it before `json.dumps`: objects keep their
    members in insertion order. */
module Json {
  import opened Wrappers

  datatype Json =
    | Null
    | Bool(b: bool)
    | Int(i: int)
    | Str(s: string)
    | Arr(items: seq<Json>)
    | Obj(members: seq<(string, Json)>)

  /** The member names of an object, in order. */
  function Keys(members: seq<(string, Json)>): (ks: seq<string>)
    ensures |ks| == |members|
    ensures forall i :: 0 <= i < |members| ==> ks[i] == members[i].0
  {
    seq(|members|, i requires 0 <= i < |members| => members[i].0)
  }

  /** The member values of an object, in order. */
  function Values(members: seq<(string, Json)>): (vs: seq<Json>)
    ensures |vs| == |members|
    ensures forall i :: 0 <= i < |members| ==> vs[i] == members[i].1
  {
    seq(|members|, i requires 0 <= i < |members| => members[i].1)
  }

  /** `d.get(key)`: the value bound to `key`; when a name repeats, the last
      binding wins, as in a dict built from the members in order. */
  function Get(members: seq<(string, Json)>, key: string): (r: Option<Json>)
    ensures r.None? <==> key !in Keys(members)
    ensures r.Some? ==> exists i :: 0 <= i < |members| && members[i] == (key, r.value)
  {
    if |members| == 0 then None
    else if members[|members| - 1].0 == key then Some(members[|members| - 1].1)
    else
      var r := Get(members[..|members| - 1], key);
      assert Keys(members) == Keys(members[..|members| - 1]) + [members[|members| - 1].0];
      r
  }

  /** An optional string: `None` becomes `null`. */
  function OptStr(o: Option<string>): Json {
    match o
    case None => Null
    case Some(s) => Str(s)
  }

  /** An optional integer: `None` becomes `null`. */
  function OptInt(o: Option<int>): Json {
    match o
    case None => Null
    case Some(n) => Int(n)
  }

  /** A list of strings. */
  function StrArr(ss: seq<string>): (j: Json)
    ensures j.Arr? && |j.items| == |ss|
  {
    Arr(seq(|ss|, i requires 0 <= i < |ss| => Str(ss[i])))
  }

  /** Reads a string. */
  function AsStr(j: Json): Option<string> {
    if j.Str? then Some(j.s) else None
  }

  /** Reads a string or `null`. */
  function AsOptStr(j: Json): Option<Option<string>> {
    match j
    case Null => Some(None)
    case Str(s) => Some(Some(s))
    case _ => None
  }

  /** Reads an integer or `null`. */
  function AsOptInt(j: Json): Option<Option<int>> {
    match j
    case Null => Some(None)
    case Int(n) => Some(Some(n))
    case _ => None
  }

  /** Reads a boolean. */
  function AsBool(j: Json): Option<bool> {
    if j.Bool? then Some(j.b) else None
  }

  /** Reads an integer. */
  function AsInt(j: Json): Option<int> {
    if j.Int? then Some(j.i) else None
  }

  /** Reads a list of strings. */
  function AsStrList(j: Json): (r: Option<seq<string>>)
    ensures r.Some? ==> j.Arr? && |r.value| == |j.items|
  {
    if !j.Arr? then None
    else if forall i :: 0 <= i < |j.items| ==> j.items[i].Str? then
      Some(seq(|j.items|, i requires 0 <= i < |j.items| => j.items[i].s))
    else None
  }

  /** The values of an object whose member names are exactly `keys`, in that
      order; None for any other shape. */
  function Fields(j: Json, keys: seq<string>): (r: Option<seq<Json>>)
    ensures r.Some? ==> |r.value| == |keys|
  {
    if j.Obj? && Keys(j.members) == keys then Some(Values(j.members)) else None
  }

  /** Each reader inverts its writer. */
  lemma ReadersInvertWriters(s: string, o: Option<string>, n: Option<int>, ss: seq<string>)
    ensures AsStr(Str(s)) == Some(s)
    ensures AsOptStr(OptStr(o)) == Some(o)
    ensures AsOptInt(OptInt(n)) == Some(n)
    ensures AsStrList(StrArr(ss)) == Some(ss)
  {
    var j := StrArr(ss);
    assert forall i :: 0 <= i < |j.items| ==> j.items[i] == Str(ss[i]);
    assert seq(|j.items|, i requires 0 <= i < |j.items| => j.items[i].s) == ss;
  }

  /** An object reads back member by member. */
  lemma FieldsOfObj(members: seq<(string, Json)>)
    ensures Fields(Obj(members), Keys(members)) == Some(Values(members))
  {
  }
}

=== FILE: metadata.dfy ===
/** `ProjectMetadataService`: how SDK failures become the service's three
    error kinds, how a project-list reply is unwrapped, and how an SDK
    `TeamProject` becomes a domain `Project`. The SDK calls themselves are not
    modelled; what they return or raise is an input. */
module Metadata {
  import opened Wrappers
  import opened Text
  import opened Json
  import opened Models

  const DefaultCollectionName: string := "DefaultCollection"
  const DefaultState: string := "wellFormed"
  const DefaultVisibility: string := "private"
  const TeamSuffix: string := " Team"

  const NotFoundCode: string := "TF200016"
  const NotFoundPhrase: string := "does not exist"
  const AuthenticationMessage: string := "Authentication failed. Please check your credentials."
  const UnavailableMessage: string := "Azure DevOps service is currently unavailable"
  const ApiErrorPrefix: string := "Azure DevOps API error: "
  const UnexpectedPrefix: string := "Unexpected error: "
  const NotIterableText: string := "'NoneType' object is not iterable"

  /** An attribute as `getattr(obj, name, default)` sees it: missing, or set
      (possibly to Python's None, when `T` is an Option). */
  datatype Attr<T> = Absent | Present(value: T) {
    /** `getattr(obj, name, default)`. */
    function Or(default: T): (v: T)
      ensures this.Absent? ==> v == default
      ensures this.Present? ==> v == this.value
    {
      if this.Present? then this.value else default
    }
  }

  /** The SDK's project record. `id`, `name` and `url` are read directly;
      the rest through `getattr` with a default. */
  datatype TeamProject = TeamProject(
    id: string,
    name: string,
    url: Option<string>,
    collectionId: Attr<string>,
    collectionName: Attr<string>,
    defaultTeamId: Attr<string>,
    defaultTeamName: Attr<string>,
    description: Attr<Option<string>>,
    state: Attr<Option<string>>,
    revision: Attr<Option<int>>,
    visibility: Attr<Option<string>>)

  datatype Service = Service(organizationUrl: string, personalAccessToken: string)

  /** `f"{x}"` of an optional string: None prints as `None`. */
  function Render(x: Option<string>): string {
    if x.Some? then x.value else "None"
  }

  /** The URL given to the default team. */
  function DefaultTeamUrl(tp: TeamProject): string {
    Render(tp.url) + "/_apis/projects/" + tp.id + "/teams/" + tp.id + "%20Team"
  }

  /** `_convert_team_project_to_domain_model`. */
  function Convert(svc: Service, tp: TeamProject): (p: Project)
    ensures p.id == tp.id && p.name == tp.name && p.url == tp.url
    ensures p.collection.Some? && p.defaultTeam.Some?
    ensures p.collection.value.url == svc.organizationUrl && p.collection.value.collectionUrl == svc.organizationUrl
    ensures tp.collectionId.Absent? ==> p.collection.value.id == tp.id
    ensures tp.collectionName.Absent? ==> p.collection.value.name == DefaultCollectionName
    ensures tp.description.Absent? ==> p.description == Some("")
    ensures tp.state.Absent? ==> p.state == Some(DefaultState)
    ensures tp.revision.Absent? ==> p.revision == Some(0)
    ensures tp.visibility.Absent? ==> p.visibility == Some(DefaultVisibility)
    ensures tp.defaultTeamId.Absent? ==> p.defaultTeam.value.id == tp.id + TeamSuffix
    ensures tp.defaultTeamName.Absent? ==> p.defaultTeam.value.name == tp.name + TeamSuffix
    ensures p.defaultTeam.value.url == Some(DefaultTeamUrl(tp))
    ensures p.defaultTeam.value.description.None? && p.defaultTeam.value.projectId.None?
    ensures p.defaultTeam.value.settings.None? && p.defaultTeam.value.members == []
  {
    var collection := Collection(
      tp.collectionId.Or(tp.id), tp.collectionName.Or(DefaultCollectionName),
      svc.organizationUrl, svc.organizationUrl);
    var team := Team(
      tp.defaultTeamId.Or(tp.id + TeamSuffix), tp.defaultTeamName.Or(tp.name + TeamSuffix),
      None, Some(DefaultTeamUrl(tp)), None, None, []);
    Project(
      tp.id, tp.name, tp.description.Or(Some("")), tp.url, tp.state.Or(Some(DefaultState)),
      tp.revision.Or(Some(0)), tp.visibility.Or(Some(DefaultVisibility)), Some(collection), Some(team))
  }

  /** An attribute that is set, even to None, is copied as it is. */
  lemma ConvertCopiesPresentAttributes(svc: Service, tp: TeamProject)
    ensures var p := Convert(svc, tp);
      && (tp.description.Present? ==> p.description == tp.description.value)
      && (tp.state.Present? ==> p.state == tp.state.value)
      && (tp.revision.Present? ==> p.revision == tp.revision.value)
      && (tp.visibility.Present? ==> p.visibility == tp.visibility.value)
      && (tp.collectionId.Present? ==> p.collection.value.id == tp.collectionId.value)
      && (tp.collectionName.Present? ==> p.collection.value.name == tp.collectionName.value)
      && (tp.defaultTeamId.Present? ==> p.defaultTeam.value.id == tp.defaultTeamId.value)
      && (tp.defaultTeamName.Present? ==> p.defaultTeam.value.name == tp.defaultTeamName.value)
  {
  }

  /** A bare SDK project (only id, name and url) is exported with the
      defaults filled in. */
  lemma BareProjectExport(svc: Service, id: string, name: string, url: Option<string>)
    ensures var tp := TeamProject(id, name, url, Absent, Absent, Absent, Absent, Absent, Absent, Absent, Absent);
      ProjectJson(Convert(svc, tp)) ==
        Obj([("id", Str(id)), ("name", Str(name)), ("description", Str("")), ("url", OptStr(url)),
             ("state", Str("wellFormed")), ("revision", Int(0)), ("visibility", Str("private"))])
  {
  }

  /** What an SDK call raises: msrest's `HttpOperationError`, carrying the
      response status, or any other exception; `text` is `str(e)`. */
  datatype SdkError = HttpOperationError(status: int, text: string) | OtherError(text: string)

  /** The service's own exceptions. */
  datatype ServiceError =
    | ProjectNotFound(message: string)
    | AuthenticationFailed(message: string)
    | ServiceUnavailable(message: string)

  /** The message of a not-found error. */
  function NotFoundMessage(projectId: string): string {
    "Project with ID '" + projectId + "' not found"
  }

  /** The error text says the project does not exist. */
  predicate SaysNotFound(text: string) {
    Contains(text, NotFoundCode) || Contains(text, NotFoundPhrase)
  }

  /** `SaysNotFound` holds exactly when one of the two phrases occurs in the
      text. */
  lemma SaysNotFoundIff(text: string)
    ensures SaysNotFound(text) <==>
      (exists i :: OccursAt(text, NotFoundCode, i)) || (exists i :: OccursAt(text, NotFoundPhrase, i))
  {
    ContainsIff(text, NotFoundCode);
    ContainsIff(text, NotFoundPhrase);
  }

  /** The `except` clauses of `get_project_by_id`. */
  function ClassifyGetProjectError(projectId: string, e: SdkError): (r: ServiceError)
    ensures r.ProjectNotFound? <==>
      || (e.HttpOperationError? && e.status == 404)
      || (e.OtherError? && ((exists i :: OccursAt(e.text, NotFoundCode, i))
                            || (exists i :: OccursAt(e.text, NotFoundPhrase, i))))
    ensures r.ProjectNotFound? ==> r.message == NotFoundMessage(projectId)
    ensures r.AuthenticationFailed? <==> e.HttpOperationError? && e.status == 401
    ensures r.AuthenticationFailed? ==> r.message == AuthenticationMessage
    ensures r.ServiceUnavailable? && e.HttpOperationError? ==>
      r.message == if e.status >= 500 then UnavailableMessage else ApiErrorPrefix + e.text
    ensures r.ServiceUnavailable? && e.OtherError? ==> r.message == UnexpectedPrefix + e.text
  {
    SaysNotFoundIff(e.text);
    match e
    case HttpOperationError(status, text) =>
      if status == 404 then ProjectNotFound(NotFoundMessage(projectId))
      else if status == 401 then AuthenticationFailed(AuthenticationMessage)
      else if status >= 500 then ServiceUnavailable(UnavailableMessage)
      else ServiceUnavailable(ApiErrorPrefix + text)
    case OtherError(text) =>
      if SaysNotFound(text) then ProjectNotFound(NotFoundMessage(projectId))
      else ServiceUnavailable(UnexpectedPrefix + text)
  }

  /** The `except` clauses of `list_projects`: there is no not-found outcome. */
  function ClassifyListProjectsError(e: SdkError): (r: ServiceError)
    ensures !r.ProjectNotFound?
    ensures r.AuthenticationFailed? <==> e.HttpOperationError? && e.status == 401
    ensures r.AuthenticationFailed? ==> r.message == AuthenticationMessage
  {
    match e
    case HttpOperationError(status, text) =>
      if status == 401 then AuthenticationFailed(AuthenticationMessage)
      else if status >= 500 then ServiceUnavailable(UnavailableMessage)
      else ServiceUnavailable(ApiErrorPrefix + text)
    case OtherError(text) => ServiceUnavailable(UnexpectedPrefix + text)
  }

  /** The two tables differ only where `get_project_by_id` reports a missing
      project: there `list_projects` reports the service unavailable, with the
      message its generic branch builds. */
  lemma ListClassificationAgreesWithGet(projectId: string, e: SdkError)
    ensures ClassifyListProjectsError(e) ==
      if ClassifyGetProjectError(projectId, e).ProjectNotFound? then
        ServiceUnavailable(if e.HttpOperationError? then ApiErrorPrefix + e.text else UnexpectedPrefix + e.text)
      else ClassifyGetProjectError(projectId, e)
  {
  }

  /** What an SDK call gives back: its value, or the exception it raised. */
  datatype Call<T> = Returned(value: T) | Raised(error: SdkError)

  /** `get_project_by_id`, given what `get_project` did. */
  function GetProjectById(svc: Service, projectId: string, call: Call<TeamProject>): (r: Result<Project, ServiceError>)
    ensures r.Success? <==> call.Returned?
    ensures r.Success? ==> r.value.id == call.value.id
    ensures call.Returned? ==> r == Success(Convert(svc, call.value))
    ensures r.Failure? ==> r.error == ClassifyGetProjectError(projectId, call.error)
  {
    match call
    case Returned(tp) => Success(Convert(svc, tp))
    case Raised(e) => Failure(ClassifyGetProjectError(projectId, e))
  }

  /** `get_projects` either wraps the list in an object's `value` attribute
      or returns the list itself; either may be None. */
  datatype ProjectsReply = Wrapped(value: Option<seq<TeamProject>>) | Bare(projects: Option<seq<TeamProject>>) {
    /** `project_list`: what the `hasattr` test picks. */
    function Listed(): (l: Option<seq<TeamProject>>)
      ensures this.Wrapped? ==> l == this.value
      ensures this.Bare? ==> l == this.projects
    {
      if this.Wrapped? then this.value else this.projects
    }
  }

  /** The `for` loop: one domain project per SDK project, in order. */
  function ConvertAll(svc: Service, tps: seq<TeamProject>): (ps: seq<Project>)
    ensures |ps| == |tps|
    ensures forall i :: 0 <= i < |tps| ==> ps[i] == Convert(svc, tps[i])
  {
    if |tps| == 0 then [] else [Convert(svc, tps[0])] + ConvertAll(svc, tps[1..])
  }

  /** Converting a concatenation converts each part in turn. */
  lemma {:induction false} ConvertAllAppend(svc: Service, a: seq<TeamProject>, b: seq<TeamProject>)
    ensures ConvertAll(svc, a + b) == ConvertAll(svc, a) + ConvertAll(svc, b)
  {
    if |a| == 0 {
      assert a + b == b;
    } else {
      assert (a + b)[1..] == a[1..] + b;
      ConvertAllAppend(svc, a[1..], b);
    }
  }

  /** `list_projects`, given what `get_projects` did. None is not iterable:
      the TypeError lands in the generic handler. */
  function ListProjects(svc: Service, call: Call<ProjectsReply>): (r: Result<seq<Project>, ServiceError>)
    ensures r.Failure? ==> !r.error.ProjectNotFound?
    ensures call.Raised? ==> r == Failure(ClassifyListProjectsError(call.error))
    ensures call.Returned? && call.value.Listed().None? ==>
      r == Failure(ServiceUnavailable(UnexpectedPrefix + NotIterableText))
    ensures r.Success? <==> call.Returned? && call.value.Listed().Some?
    ensures r.Success? ==>
      var tps := call.value.Listed().value;
      && |r.value| == |tps|
      && forall i :: 0 <= i < |tps| ==> r.value[i] == Convert(svc, tps[i])
  {
    match call
    case Raised(e) => Failure(ClassifyListProjectsError(e))
    case Returned(reply) =>
      match reply.Listed()
      case None => Failure(ServiceUnavailable(UnexpectedPrefix + NotIterableText))
      case Some(tps) => Success(ConvertAll(svc, tps))
  }

  /** A wrapped list and the same list returned bare give the same result,
      and so do a wrapped None and a bare None. */
  lemma WrappedSameAsBare(svc: Service, tps: Option<seq<TeamProject>>)
    ensures ListProjects(svc, Returned(Wrapped(tps))) == ListProjects(svc, Returned(Bare(tps)))
  {
  }
}

=== FILE: models.dfy ===
/** The export's domain records and `ProcessExport.to_dict`, which turns them
    into the camelCase JSON tree that is written out. */
module Models {
  import opened Wrappers
  import opened Json

  /** A team's bug behaviour; each member is stored as its string value. */
  datatype BugBehavior = AsRequirements | AsTasks | Off {
    /** The enum member's value, as `to_dict` writes it. */
    function Value(): (s: string)
      ensures s in BugBehaviorValues
    {
      match this
      case AsRequirements => "asRequirements"
      case AsTasks => "asTasks"
      case Off => "off"
    }
  }

  /** The three values `bugsBehavior` may take. */
  const BugBehaviorValues: set<string> := {"asRequirements", "asTasks", "off"}

  /** `BugBehavior(s)`: the member whose value is `s`; None where Python raises
      ValueError. */
  function ParseBugBehavior(s: string): (r: Option<BugBehavior>)
    ensures r.Some? <==> s in BugBehaviorValues
    ensures r.Some? ==> r.value.Value() == s
  {
    if s == "asRequirements" then Some(AsRequirements)
    else if s == "asTasks" then Some(AsTasks)
    else if s == "off" then Some(Off)
    else None
  }

  /** Reading a value back gives the member that wrote it. */
  lemma BugBehaviorRoundTrip(b: BugBehavior)
    ensures ParseBugBehavior(b.Value()) == Some(b)
  {
  }

  datatype Collection = Collection(id: string, name: string, url: string, collectionUrl: string)

  datatype Project = Project(
    id: string,
    name: string,
    description: Option<string>,
    url: Option<string>,
    state: Option<string>,
    revision: Option<int>,
    visibility: Option<string>,
    collection: Option<Collection>,
    defaultTeam: Option<Team>)

  datatype WorkItemType = WorkItemType(
    name: string,
    refName: string,
    description: Option<string>,
    color: Option<string>,
    icon: Option<string>,
    isDisabled: bool,
    usageLast12M: int)

  datatype WorkItemField = WorkItemField(
    refName: string,
    name: string,
    fieldType: string,
    description: Option<string>,
    usage: Option<string>,
    readOnly: bool,
    canSortBy: bool,
    isQueryable: bool,
    supportedOperations: seq<string>)

  datatype ProcessBehavior = ProcessBehavior(
    name: string,
    refName: string,
    inherits: Option<string>,
    description: Option<string>,
    isAbstract: bool)

  datatype TeamMember = TeamMember(
    id: string,
    displayName: string,
    uniqueName: string,
    url: Option<string>,
    imageUrl: Option<string>,
    aadId: Option<string>,
    jobTitle: Option<string>,
    mail: Option<string>,
    roleHint: Option<string>)

  datatype TeamSettings = TeamSettings(
    workingDays: seq<string>,
    bugsBehavior: BugBehavior,
    defaultIteration: Option<string>,
    defaultIterationMacro: Option<string>,
    backlogIteration: Option<string>)

  /** The working week a `TeamSettings()` built with no arguments gets. */
  const DefaultWorkingDays: seq<string> := ["monday", "tuesday", "wednesday", "thursday", "friday"]

  /** `TeamSettings()` with every field left at its default. */
  const DefaultTeamSettings: TeamSettings := TeamSettings(DefaultWorkingDays, AsRequirements, None, None, None)

  datatype Team = Team(
    id: string,
    name: string,
    description: Option<string>,
    url: Option<string>,
    projectId: Option<string>,
    settings: Option<TeamSettings>,
    members: seq<TeamMember>)

  datatype BacklogLevel = BacklogLevel(
    id: string,
    name: string,
    refName: string,
    rank: int,
    color: Option<string>,
    workItemTypes: seq<string>)

  /** No name is bound twice. */
  predicate NamesDistinct(m: seq<(string, int)>) {
    forall i, j :: 0 <= i < j < |m| ==> m[i].0 != m[j].0
  }

  /** A `dict[str, int]` of counts per month, in insertion order. */
  type MonthCounts = m: seq<(string, int)> | NamesDistinct(m) witness []

  datatype Metrics = Metrics(
    workItemsCreatedPerMonth: MonthCounts,
    workItemsClosedPerMonth: MonthCounts,
    workItemsUpdatedPerMonth: MonthCounts,
    prsCreatedPerMonth: MonthCounts,
    prsMergedPerMonth: MonthCounts,
    pipelineRunsPerMonth: MonthCounts)

  /** The export; `exportedAt` is the already rendered ISO-8601 timestamp. */
  datatype ProcessExport = ProcessExport(
    exportedAt: string,
    project: Project,
    workItemTypes: seq<WorkItemType>,
    fields: seq<WorkItemField>,
    behaviors: seq<ProcessBehavior>,
    teams: seq<Team>,
    backlogLevels: seq<BacklogLevel>,
    metrics: Option<Metrics>,
    warnings: seq<string>)

  // The member names each object of the tree carries, in order.
  const ExportKeys: seq<string> :=
    ["exportedAt", "project", "workItemTypes", "fields", "behaviors", "teams", "backlogLevels", "metrics", "warnings"]
  const ProjectKeys: seq<string> := ["id", "name", "description", "url", "state", "revision", "visibility"]
  const WorkItemTypeKeys: seq<string> := ["name", "refName", "description", "color", "icon", "isDisabled", "usageLast12M"]
  const FieldKeys: seq<string> :=
    ["refName", "name", "type", "description", "usage", "readOnly", "canSortBy", "isQueryable", "supportedOperations"]
  const BehaviorKeys: seq<string> := ["name", "refName", "inherits", "description", "abstract"]
  const TeamKeys: seq<string> := ["id", "name", "description", "url", "projectId", "settings", "members"]
  const SettingsKeys: seq<string> :=
    ["workingDays", "bugsBehavior", "defaultIteration", "defaultIterationMacro", "backlogIteration"]
  const MemberKeys: seq<string> :=
    ["id", "displayName", "uniqueName", "url", "imageUrl", "aadId", "jobTitle", "mail", "roleHint"]
  const BacklogLevelKeys: seq<string> := ["id", "name", "refName", "rank", "color", "workItemTypes"]
  const MetricsKeys: seq<string> :=
    ["workItemsCreatedPerMonth", "workItemsClosedPerMonth", "workItemsUpdatedPerMonth",
     "prsCreatedPerMonth", "prsMergedPerMonth", "pipelineRunsPerMonth"]

  /** A list comprehension `[enc(x) for x in xs]`. */
  function ListJson<T>(xs: seq<T>, enc: T -> Json): (j: Json)
    ensures j.Arr? && |j.items| == |xs|
    ensures forall i :: 0 <= i < |xs| ==> j.items[i] == enc(xs[i])
  {
    Arr(seq(|xs|, i requires 0 <= i < |xs| => enc(xs[i])))
  }

  /** The project object: collection and default team are not written. */
  function ProjectJson(p: Project): (j: Json)
    ensures j.Obj? && Keys(j.members) == ProjectKeys
  {
    Obj([("id", Str(p.id)), ("name", Str(p.name)), ("description", OptStr(p.description)),
         ("url", OptStr(p.url)), ("state", OptStr(p.state)), ("revision", OptInt(p.revision)),
         ("visibility", OptStr(p.visibility))])
  }

  function WorkItemTypeJson(w: WorkItemType): (j: Json)
    ensures j.Obj? && Keys(j.members) == WorkItemTypeKeys
  {
    Obj([("name", Str(w.name)), ("refName", Str(w.refName)), ("description", OptStr(w.description)),
         ("color", OptStr(w.color)), ("icon", OptStr(w.icon)), ("isDisabled", Bool(w.isDisabled)),
         ("usageLast12M", Int(w.usageLast12M))])
  }

  function FieldJson(f: WorkItemField): (j: Json)
    ensures j.Obj? && Keys(j.members) == FieldKeys
  {
    Obj([("refName", Str(f.refName)), ("name", Str(f.name)), ("type", Str(f.fieldType)),
         ("description", OptStr(f.description)), ("usage", OptStr(f.usage)), ("readOnly", Bool(f.readOnly)),
         ("canSortBy", Bool(f.canSortBy)), ("isQueryable", Bool(f.isQueryable)),
         ("supportedOperations", StrArr(f.supportedOperations))])
  }

  function BehaviorJson(b: ProcessBehavior): (j: Json)
    ensures j.Obj? && Keys(j.members) == BehaviorKeys
  {
    Obj([("name", Str(b.name)), ("refName", Str(b.refName)), ("inherits", OptStr(b.inherits)),
         ("description", OptStr(b.description)), ("abstract", Bool(b.isAbstract))])
  }

  function MemberJson(m: TeamMember): (j: Json)
    ensures j.Obj? && Keys(j.members) == MemberKeys
  {
    Obj([("id", Str(m.id)), ("displayName", Str(m.displayName)), ("uniqueName", Str(m.uniqueName)),
         ("url", OptStr(m.url)), ("imageUrl", OptStr(m.imageUrl)), ("aadId", OptStr(m.aadId)),
         ("jobTitle", OptStr(m.jobTitle)), ("mail", OptStr(m.mail)), ("roleHint", OptStr(m.roleHint))])
  }

  /** A settings object; `bugsBehavior` is always one of the three values. */
  function SettingsJson(s: TeamSettings): (j: Json)
    ensures j.Obj? && Keys(j.members) == SettingsKeys
    ensures j.members[1].1.Str? && j.members[1].1.s in BugBehaviorValues
  {
    Obj([("workingDays", StrArr(s.workingDays)), ("bugsBehavior", Str(s.bugsBehavior.Value())),
         ("defaultIteration", OptStr(s.defaultIteration)),
         ("defaultIterationMacro", OptStr(s.defaultIterationMacro)),
         ("backlogIteration", OptStr(s.backlogIteration))])
  }

  /** A team object: `settings` is null exactly when the team has none, and
      `members` lists the team's members in order. */
  function TeamJson(t: Team): (j: Json)
    ensures j.Obj? && Keys(j.members) == TeamKeys
    ensures j.members[5].1 == Null <==> t.settings.None?
    ensures j.members[6].1.Arr? && |j.members[6].1.items| == |t.members|
  {
    var settings := match t.settings case None => Null case Some(s) => SettingsJson(s);
    Obj([("id", Str(t.id)), ("name", Str(t.name)), ("description", OptStr(t.description)),
         ("url", OptStr(t.url)), ("projectId", OptStr(t.projectId)), ("settings", settings),
         ("members", ListJson(t.members, MemberJson))])
  }

  function BacklogLevelJson(l: BacklogLevel): (j: Json)
    ensures j.Obj? && Keys(j.members) == BacklogLevelKeys
  {
    Obj([("id", Str(l.id)), ("name", Str(l.name)), ("refName", Str(l.refName)), ("rank", Int(l.rank)),
         ("color", OptStr(l.color)), ("workItemTypes", StrArr(l.workItemTypes))])
  }

  /** A month-count dict, its names and order unchanged. */
  function CountsJson(m: MonthCounts): (j: Json)
    ensures j.Obj? && Keys(j.members) == seq(|m|, i requires 0 <= i < |m| => m[i].0)
  {
    Obj(seq(|m|, i requires 0 <= i < |m| => (m[i].0, Int(m[i].1))))
  }

  function MetricsJson(m: Metrics): (j: Json)
    ensures j.Obj? && Keys(j.members) == MetricsKeys
  {
    Obj([("workItemsCreatedPerMonth", CountsJson(m.workItemsCreatedPerMonth)),
         ("workItemsClosedPerMonth", CountsJson(m.workItemsClosedPerMonth)),
         ("workItemsUpdatedPerMonth", CountsJson(m.workItemsUpdatedPerMonth)),
         ("prsCreatedPerMonth", CountsJson(m.prsCreatedPerMonth)),
         ("prsMergedPerMonth", CountsJson(m.prsMergedPerMonth)),
         ("pipelineRunsPerMonth", CountsJson(m.pipelineRunsPerMonth))])
  }

  /** `ProcessExport.to_dict()`: exactly the nine top-level names, in order;
      each list as long as its source; `metrics` null exactly when absent;
      the warnings unchanged. */
  function ToDict(e: ProcessExport): (j: Json)
    ensures j.Obj? && Keys(j.members) == ExportKeys
    ensures j.members[2].1.Arr? && |j.members[2].1.items| == |e.workItemTypes|
    ensures j.members[3].1.Arr? && |j.members[3].1.items| == |e.fields|
    ensures j.members[4].1.Arr? && |j.members[4].1.items| == |e.behaviors|
    ensures j.members[5].1.Arr? && |j.members[5].1.items| == |e.teams|
    ensures j.members[6].1.Arr? && |j.members[6].1.items| == |e.backlogLevels|
    ensures j.members[7].1 == Null <==> e.metrics.None?
    ensures AsStrList(j.members[8].1) == Some(e.warnings)
  {
    ReadersInvertWriters("", None, None, e.warnings);
    var metrics := match e.metrics case None => Null case Some(m) => MetricsJson(m);
    var members := [
      ("exportedAt", Str(e.exportedAt)), ("project", ProjectJson(e.project)),
      ("workItemTypes", ListJson(e.workItemTypes, WorkItemTypeJson)),
      ("fields", ListJson(e.fields, FieldJson)),
      ("behaviors", ListJson(e.behaviors, BehaviorJson)),
      ("teams", ListJson(e.teams, TeamJson)),
      ("backlogLevels", ListJson(e.backlogLevels, BacklogLevelJson)),
      ("metrics", metrics),
      ("warnings", StrArr(e.warnings))];
    assert Keys(members) == ExportKeys;
    Obj(members)
  }

  /** A team's `settings` entry is null exactly when it has no settings. */
  lemma TeamSettingsNullIff(e: ProcessExport, i: nat)
    requires i < |e.teams|
    ensures ToDict(e).members[5].1.items[i].members[5].1 == Null <==> e.teams[i].settings.None?
  {
  }

  /** Default settings serialise to the Monday-to-Friday week with bugs kept
      as requirements and no iterations. */
  lemma DefaultSettingsJson()
    ensures SettingsJson(DefaultTeamSettings) ==
      Obj([("workingDays", Arr([Str("monday"), Str("tuesday"), Str("wednesday"), Str("thursday"), Str("friday")])),
           ("bugsBehavior", Str("asRequirements")),
           ("defaultIteration", Null), ("defaultIterationMacro", Null), ("backlogIteration", Null)])
  {
    assert StrArr(DefaultWorkingDays).items
        == [Str("monday"), Str("tuesday"), Str("wednesday"), Str("thursday"), Str("friday")];
  }
}

=== FILE: text.dfy ===
/** The few pieces of Python string behaviour the rest of the model relies on:
    `str.strip()`, the `in` substring test, `str.startswith` and the decimal
    rendering of a non-negative `int` inside an f-string. */
module Text {

  /** Python's `str.isspace()`: the characters `str.strip()` with no argument
      removes (the ASCII controls 9-13 and 28-31, space, NEL, NBSP, and the
      Unicode space and separator characters). */
  predicate IsSpace(c: char) {
    || ('\t' <= c <= '\r')
    || ('\U{1C}' <= c <= '\U{1F}')
    || c == ' '
    || c == '\U{85}'
    || c == '\U{A0}'
    || c == '\U{1680}'
    || ('\U{2000}' <= c <= '\U{200A}')
    || c == '\U{2028}'
    || c == '\U{2029}'
    || c == '\U{202F}'
    || c == '\U{205F}'
    || c == '\U{3000}'
  }

  /** Every character of `s` is whitespace (vacuously true of ""). */
  predicate AllSpace(s: string) {
    forall i :: 0 <= i < |s| ==> IsSpace(s[i])
  }

  /** The length of the longest all-whitespace prefix of `s`. */
  function LeadingSpaces(s: string): (n: nat)
    ensures n <= |s|
    ensures AllSpace(s[..n])
    ensures n < |s| ==> !IsSpace(s[n])
  {
    if |s| == 0 || !IsSpace(s[0]) then 0
    else
      var n := LeadingSpaces(s[1..]);
      assert s[..n + 1] == [s[0]] + s[1..][..n];
      assert n + 1 < |s| ==> s[n + 1] == s[1..][n];
      1 + n
  }

  /** The length of the longest all-whitespace suffix of `s`. */
  function TrailingSpaces(s: string): (n: nat)
    ensures n <= |s|
    ensures AllSpace(s[|s| - n..])
    ensures n < |s| ==> !IsSpace(s[|s| - 1 - n])
  {
    if |s| == 0 || !IsSpace(s[|s| - 1]) then 0
    else
      var t := s[..|s| - 1];
      var n := TrailingSpaces(t);
      assert s[|s| - (n + 1)..] == t[|t| - n..] + [s[|s| - 1]];
      assert n + 1 < |s| ==> s[|s| - 1 - (n + 1)] == t[|t| - 1 - n];
      1 + n
  }

  /** Cutting `s[..i]` and `s[j..]` off `s` removes only whitespace and leaves
      a string that neither starts nor ends with whitespace. */
  predicate IsStripSplit(s: string, i: int, j: int) {
    0 <= i <= j <= |s| && AllSpace(s[..i]) && AllSpace(s[j..])
    && (i < j ==> !IsSpace(s[i]) && !IsSpace(s[j - 1]))
  }

  /** `r` is what stripping `s` must give. */
  ghost predicate IsStripOf(s: string, r: string) {
    exists i, j :: IsStripSplit(s, i, j) && s[i..j] == r
  }

  /** Python's `s.strip()`. */
  function Strip(s: string): (r: string)
    ensures IsStripOf(s, r)
    ensures |r| <= |s|
  {
    var i := LeadingSpaces(s);
    var j := TrailingSpaces(s[i..]);
    var r := s[i..|s| - j];
    assert s[|s| - j..] == s[i..][|s[i..]| - j..];
    assert r != [] ==> r[0] == s[i] && r[|r| - 1] == s[i..][|s[i..]| - 1 - j];
    assert IsStripSplit(s, i, |s| - j);
    r
  }

  /** Stripping gives the empty string exactly when `s` is all whitespace;
      this is the test behind `not x or not x.strip()`. */
  lemma StripEmptyIff(s: string)
    ensures Strip(s) == [] <==> AllSpace(s)
  {
    var i := LeadingSpaces(s);
    if i < |s| {
      // s[i] is not whitespace, so it survives on both sides
      var j := TrailingSpaces(s[i..]);
      assert j < |s[i..]|;
      assert Strip(s) != [];
    } else {
      assert s[..i] == s;
    }
  }

  /** Stripping twice is stripping once. */
  lemma StripIdempotent(s: string)
    ensures Strip(Strip(s)) == Strip(s)
  {
    var r := Strip(s);
    if r != [] {
      assert LeadingSpaces(r) == 0;
      assert TrailingSpaces(r) == 0;
      assert r[0..|r|] == r;
    }
  }

  /** A whitespace prefix holds only whitespace. */
  lemma SpaceInPrefix(s: string, n: int, k: int)
    requires 0 <= k < n <= |s| && AllSpace(s[..n])
    ensures IsSpace(s[k])
  {
    assert s[..n][k] == s[k];
  }

  /** A whitespace suffix holds only whitespace. */
  lemma SpaceInSuffix(s: string, n: int, k: int)
    requires 0 <= n <= k < |s| && AllSpace(s[n..])
    ensures IsSpace(s[k])
  {
    assert s[n..][k - n] == s[k];
  }

  /** Two ways of cutting whitespace margins off `s`, each leaving a string
      that neither starts nor ends with whitespace, leave the same string. */
  lemma StripSplitUnique(s: string, i1: int, j1: int, i2: int, j2: int)
    requires IsStripSplit(s, i1, j1) && IsStripSplit(s, i2, j2)
    ensures s[i1..j1] == s[i2..j2]
  {
    if i1 < j1 && i2 < j2 {
      if i2 > i1 {
        SpaceInPrefix(s, i2, i1);
        assert false;
      }
      if i1 > i2 {
        SpaceInPrefix(s, i1, i2);
        assert false;
      }
      if j2 < j1 {
        SpaceInSuffix(s, j2, j1 - 1);
        assert false;
      }
      if j1 < j2 {
        SpaceInSuffix(s, j1, j2 - 1);
        assert false;
      }
    } else if i1 < j1 {
      if i1 < i2 {
        SpaceInPrefix(s, i2, i1);
      } else {
        SpaceInSuffix(s, j2, i1);
      }
      assert false;
    } else if i2 < j2 {
      if i2 < i1 {
        SpaceInPrefix(s, i1, i2);
      } else {
        SpaceInSuffix(s, j1, i2);
      }
      assert false;
    }
  }

  /** Joining whitespace to whitespace gives whitespace. */
  lemma AllSpaceConcat(x: string, y: string)
    requires AllSpace(x) && AllSpace(y)
    ensures AllSpace(x + y)
  {
    forall k | 0 <= k < |x + y|
      ensures IsSpace((x + y)[k])
    {
      if k < |x| {
        assert (x + y)[k] == x[k];
      } else {
        assert (x + y)[k] == y[k - |x|];
      }
    }
  }

  /** A split of `s` is a split of `s` with whitespace added around it. */
  lemma PaddedSplit(a: string, s: string, b: string, i: int, j: int)
    requires AllSpace(a) && AllSpace(b) && IsStripSplit(s, i, j)
    ensures IsStripSplit(a + s + b, |a| + i, |a| + j)
    ensures (a + s + b)[|a| + i..|a| + j] == s[i..j]
  {
    var t := a + s + b;
    assert t[..|a| + i] == a + s[..i];
    AllSpaceConcat(a, s[..i]);
    assert t[|a| + j..] == s[j..] + b;
    AllSpaceConcat(s[j..], b);
    if i < j {
      assert t[|a| + i] == s[i] && t[|a| + j - 1] == s[j - 1];
    }
  }

  /** The split `Strip` itself makes. */
  lemma StripSplit(s: string) returns (i: int, j: int)
    ensures IsStripSplit(s, i, j) && Strip(s) == s[i..j]
  {
    i := LeadingSpaces(s);
    var n := TrailingSpaces(s[i..]);
    j := |s| - n;
    assert s[j..] == s[i..][|s[i..]| - n..];
    if i < j {
      assert s[j - 1] == s[i..][|s[i..]| - 1 - n];
    }
  }

  /** Any split of `s` gives `Strip(s)`. */
  lemma StripOfSplit(s: string, i: int, j: int)
    requires IsStripSplit(s, i, j)
    ensures Strip(s) == s[i..j]
  {
    var k, l := StripSplit(s);
    StripSplitUnique(s, k, l, i, j);
  }

  /** `Strip(s)` is `r` when `r` is what some split of `s` leaves. */
  lemma StripIsSplit(s: string, i: int, j: int, r: string)
    requires IsStripSplit(s, i, j) && s[i..j] == r
    ensures Strip(s) == r
  {
    StripOfSplit(s, i, j);
  }

  /** Whitespace added around a string does not change its stripped form. */
  lemma StripPadded(a: string, s: string, b: string)
    requires AllSpace(a) && AllSpace(b)
    ensures Strip(a + s + b) == Strip(s)
  {
    var i, j := StripSplit(s);
    PaddedStrip(a, s, b, i, j);
  }

  /** Stripping `s` with whitespace around it leaves any split of `s`. */
  lemma PaddedStrip(a: string, s: string, b: string, i: int, j: int)
    requires AllSpace(a) && AllSpace(b) && IsStripSplit(s, i, j)
    ensures Strip(a + s + b) == s[i..j]
  {
    PaddedSplit(a, s, b, i, j);
    StripIsSplit(a + s + b, |a| + i, |a| + j, s[i..j]);
  }

  /** Python's `s.startswith(p)`. */
  predicate StartsWith(s: string, p: string) {
    |p| <= |s| && s[..|p|] == p
  }

  /** Python's `t in s` for strings. */
  predicate Contains(s: string, t: string)
    decreases |s|
  {
    StartsWith(s, t) || (|s| > 0 && Contains(s[1..], t))
  }

  /** `t` occurs in `s` at offset `i`. */
  predicate OccursAt(s: string, t: string, i: int) {
    0 <= i <= |s| - |t| && s[i..i + |t|] == t
  }

  /** `Contains` finds `t` exactly when `t` occurs at some offset of `s`. */
  lemma {:induction false} ContainsIff(s: string, t: string)
    ensures Contains(s, t) <==> exists i :: OccursAt(s, t, i)
    decreases |s|
  {
    if StartsWith(s, t) {
      assert OccursAt(s, t, 0);
    } else if |s| == 0 {
    } else {
      ContainsIff(s[1..], t);
      if exists i :: OccursAt(s, t, i) {
        var i :| OccursAt(s, t, i);
        assert i != 0;
        assert OccursAt(s[1..], t, i - 1) by {
          assert s[1..][i - 1..i - 1 + |t|] == s[i..i + |t|];
        }
      }
      if Contains(s[1..], t) {
        var i :| OccursAt(s[1..], t, i);
        assert OccursAt(s, t, i + 1) by {
          assert s[1..][i..i + |t|] == s[i + 1..i + 1 + |t|];
        }
      }
    }
  }

  /** The decimal digit for 0..9. */
  function DigitChar(d: nat): (c: char)
    requires d < 10
    ensures '0' <= c <= '9'
  {
    ('0' as int + d) as char
  }

  /** Decimal rendering of a non-negative integer, as `f"{n}"` prints it:
      no sign and no leading zeros. */
  function NatToString(n: nat): (s: string)
    ensures |s| >= 1
    ensures forall i :: 0 <= i < |s| ==> '0' <= s[i] <= '9'
    ensures |s| > 1 ==> s[0] != '0'
  {
    if n < 10 then [DigitChar(n)] else NatToString(n / 10) + [DigitChar(n % 10)]
  }

  /** The value of a string of decimal digits. */
  function DigitsValue(s: string): nat
    requires forall i :: 0 <= i < |s| ==> '0' <= s[i] <= '9'
  {
    if |s| == 0 then 0 else 10 * DigitsValue(s[..|s| - 1]) + (s[|s| - 1] as int - '0' as int)
  }

  /** Reading back the decimal rendering gives the number again, so distinct
      status codes always give distinct messages. */
  lemma {:induction false} NatToStringRoundTrip(n: nat)
    ensures DigitsValue(NatToString(n)) == n
  {
    if n >= 10 {
      var s := NatToString(n);
      assert s[..|s| - 1] == NatToString(n / 10);
      NatToStringRoundTrip(n / 10);
    }
  }
}

=== FILE: utf8.dfy ===
/** Text to octets: UTF-8 (Python's `str.encode()` with no argument) and
    ASCII (`str.encode('ascii')`, which refuses any other character). */
module Utf8 {
  import opened Wrappers
  import opened Bytes

  /** The UTF-8 octets of one Unicode scalar value: one to four octets, the
      lead octet carrying the length and each later one six bits. */
  function EncodeChar(c: char): (b: seq<Byte>)
    ensures 1 <= |b| <= 4
  {
    var n := c as int;
    if n < 0x80 then [n]
    else if n < 0x800 then [0xC0 + n / 64, 0x80 + n % 64]
    else if n < 0x1_0000 then
      var r := n % 4096;
      [0xE0 + n / 4096, 0x80 + r / 64, 0x80 + r % 64]
    else
      var r := n % 262144;
      var r' := r % 4096;
      [0xF0 + n / 262144, 0x80 + r / 4096, 0x80 + r' / 64, 0x80 + r' % 64]
  }

  /** `s.encode()`: the concatenated encodings of the characters. */
  function Encode(s: string): (b: seq<Byte>)
    ensures |b| >= |s|
  {
    if |s| == 0 then [] else EncodeChar(s[0]) + Encode(s[1..])
  }

  /** A UTF-8 continuation octet, 10xxxxxx. */
  predicate IsContinuation(x: Byte) {
    0x80 <= x < 0xC0
  }

  /** Reads the first character of `b` and says how many octets it took;
      None for a malformed, overlong or surrogate sequence. */
  function DecodeFirst(b: seq<Byte>): (r: Option<(char, nat)>)
    requires |b| > 0
    ensures r.Some? ==> 1 <= r.value.1 <= |b|
  {
    var b0: int := b[0];
    if b0 < 0x80 then Some((b0 as char, 1))
    else if 0xC2 <= b0 < 0xE0 && |b| >= 2 && IsContinuation(b[1]) then
      Some((((b0 - 0xC0) * 64 + (b[1] as int - 0x80)) as char, 2))
    else if 0xE0 <= b0 < 0xF0 && |b| >= 3 && IsContinuation(b[1]) && IsContinuation(b[2]) then
      var n := (b0 - 0xE0) * 4096 + (b[1] as int - 0x80) * 64 + (b[2] as int - 0x80);
      if n < 0x800 || 0xD800 <= n < 0xE000 then None else Some((n as char, 3))
    else if 0xF0 <= b0 < 0xF5 && |b| >= 4
         && IsContinuation(b[1]) && IsContinuation(b[2]) && IsContinuation(b[3]) then
      var n := (b0 - 0xF0) * 262144 + (b[1] as int - 0x80) * 4096 + (b[2] as int - 0x80) * 64 + (b[3] as int - 0x80);
      if n < 0x1_0000 || n >= 0x11_0000 then None else Some((n as char, 4))
    else None
  }

  /** `b.decode()`: None when `b` is not well-formed UTF-8. */
  function Decode(b: seq<Byte>): Option<string>
    decreases |b|
  {
    if |b| == 0 then Some([])
    else
      match DecodeFirst(b)
      case None => None
      case Some((c, k)) =>
        match Decode(b[k..])
        case None => None
        case Some(rest) => Some([c] + rest)
  }

  /** The decoder reads one encoded character back, whatever follows it. */
  lemma DecodeFirstEncodeChar(c: char, tail: seq<Byte>)
    ensures DecodeFirst(EncodeChar(c) + tail) == Some((c, |EncodeChar(c)|))
  {
    var n := c as int;
    var b := EncodeChar(c) + tail;
    if n < 0x80 {
    } else if n < 0x800 {
      assert (b[0] as int - 0xC0) * 64 + (b[1] as int - 0x80) == n;
    } else if n < 0x1_0000 {
      var r := n % 4096;
      assert (b[0] as int - 0xE0) * 4096 + (b[1] as int - 0x80) * 64 + (b[2] as int - 0x80) == n / 4096 * 4096 + r;
    } else {
      var r := n % 262144;
      var r' := r % 4096;
      assert r / 4096 * 4096 + r' == r;
      assert (b[0] as int - 0xF0) * 262144 + (b[1] as int - 0x80) * 4096 + (b[2] as int - 0x80) * 64 + (b[3] as int - 0x80)
          == n / 262144 * 262144 + r;
    }
  }

  /** Decoding undoes encoding, for every string. */
  lemma {:induction false} DecodeEncode(s: string)
    ensures Decode(Encode(s)) == Some(s)
  {
    if |s| > 0 {
      var head, tail := EncodeChar(s[0]), Encode(s[1..]);
      DecodeFirstEncodeChar(s[0], tail);
      assert (head + tail)[|head|..] == tail;
      DecodeEncode(s[1..]);
      assert s == [s[0]] + s[1..];
    }
  }

  /** Every character is in the 7-bit ASCII range. */
  predicate IsAscii(s: string) {
    forall i :: 0 <= i < |s| ==> s[i] as int < 0x80
  }

  /** `s.encode('ascii')`: the character codes, or None (Python's
      UnicodeEncodeError) when some character is outside ASCII. */
  function AsciiEncode(s: string): (r: Option<seq<Byte>>)
    ensures r.Some? <==> IsAscii(s)
    ensures r.Some? ==> |r.value| == |s|
  {
    if |s| == 0 then Some([])
    else if s[0] as int >= 0x80 then None
    else
      match AsciiEncode(s[1..])
      case None => None
      case Some(rest) => Some([s[0] as int] + rest)
  }

  /** On ASCII text the two encoders agree. */
  lemma {:induction false} AsciiIsUtf8(s: string)
    requires IsAscii(s)
    ensures AsciiEncode(s) == Some(Encode(s))
  {
    if |s| > 0 {
      AsciiIsUtf8(s[1..]);
    }
  }
}

=== FILE: wrappers.dfy ===
/** Failure-carrying datatypes shared by every module of the model.
    Python raises exceptions; the model returns one of these instead. */
module Wrappers {

  /** A value that may be absent: Python's `None` or a missing attribute. */
  datatype Option<+T> = None | Some(value: T) {

    /** Returns the wrapped value, or `default` when there is none. */
    function GetOr(default: T): T {
      match this
      case Some(v) => v
      case None => default
    }
  }

  /** Either a computed value or the error that stopped the computation. */
  datatype Result<+R, +E> = Success(value: R) | Failure(error: E)
}
